=== FILE: README.md ===
# Hacienda dashboard decision logic, in Dafny

Hacienda is a farm dashboard. Users draw a farm boundary as a GeoJSON polygon. The dashboard then shows
satellite cloud coverage and an NDVI (vegetation index) overlay for that boundary. Most of the code is
UI and proxy routes. Inside them sit small pure decisions, and this project models those decisions and
proves properties of them:

- the cloud-coverage route (`CloudCoverageRoute`): the `bbox` query guard, the low/medium/high
  classifier with thresholds 20 and 50, the record built per catalog scene, the `days` window's
  failure path, the stable newest-first sort and the summary counts;
- the NDVI route (`NdviRoute`): the same `bbox` guard, the output image size derived from the box's
  aspect ratio (base resolution 1024), and the evalscript's per-pixel colouring (cloud mask from
  scene classes 8/9/10, then a 13-band NDVI ramp);
- the date picker (`DatePicker`): the `minX,minY,maxX,maxY` string it derives from the outer ring, and
  its first-match lookups of status and "disabled";
- the cloud calendar (`CloudCalendar`): the last-write-wins date map, the per-day disabled rule and
  colour, the disabled days of the fixed 2025-03-01..2025-05-30 window, and selection;
- the farm card (`FarmCard`), the map component (`MapComponent`) and `isPolygon` (`GeoJson`): the
  guards that read GeoJSON values of unknown shape;
- the sidebar (`Sidebar`): the active-route rule.

Shared modules: `Wrappers` (Option, Result), `Text` (JavaScript `split`, `join` and prefix tests),
`JsValues` (JSON-like values with truthiness, `typeof`, property reads and `in`), `JsNumbers`
(finite reals, the two infinities and NaN, with `Math.min`, `Math.max`, `Math.round` and rendering),
and `BboxParam`. The `bbox` guard is written twice in the source, once per route, and is modelled once
in `BboxParam`.

Conventions. External effects become parameters:

- `number: string -> Option<real>` is `Number()` applied to one field; `None` means NaN.
- `fmt: real -> string` renders a finite number inside a template literal.
- `time: string -> int` is `new Date(date).getTime()`.
- The upstream answers (`Upstream`, `ProcessAnswer`) stand for the Sentinel Hub replies.
- `parseInt: string -> Option<int>` is the built-in `parseInt(_, 10)`; `None` means NaN.
- `now: int` is the clock (`new Date()`), in ms since the epoch.

Every date the components use goes through `format(d, "yyyy-MM-dd")`. So a day is represented by that
text, and a day of the calendar window by its offset from 2025-03-01. Coordinates, cloud cover and NDVI
are exact `real`s.

Notes on how the code behaves:

- The date-picker bbox reads only the outer ring `coordinates[0]`. There is no MultiPolygon flattening.
  The `getBoundingBox` helper that `src/hooks/use-cloud-coverage.ts` imports is not part of this model,
  because its definition is not in the source.
- An empty outer ring does not give "no box". The code sends the untouched sentinels
  `Infinity,Infinity,-Infinity,-Infinity` (`DatePicker.EmptyRingText`). `DatePicker.RingBox` gives the
  `Option` view: `None` exactly when the ring is empty or some position lacks a coordinate.
- No ring at all makes `coordinates[0].forEach` throw. The effect then shows its error state and makes
  no request (`BboxText` returns `None`).
- A `days` text that `parseInt` reads as NaN (say "abc") does not fall back to 30. `subDays` then
  gives an Invalid Date and `format` throws, so once the token request has succeeded the route answers
  500 "Invalid time value" (`CloudCoverageRoute.NonNumericDaysFails`). A day count that moves the start
  date out of the range of `Date` fails the same way.
- A catalog scene without `eo:cloud_cover` is not dropped: `undefined <= 20` and `undefined <= 50` are
  both false, so it is classified "high"; a `null` cover compares as 0 and is classified "low"
  (`CloudCoverageRoute.ToRecord`).
- The calendar tooltip's 30%/70% legend contradicts the classifier's 20/50 thresholds. The model
  follows the classifier.
- With repeated dates, the date picker shows the first record of a day and the calendar the last
  (`CloudCalendar.RepeatedDateDisagrees`). Their disabled rules still agree whenever every record has
  an image, as the route always sets (`CloudCalendar.DisabledAgreesWithPicker`).

## Model

| member | source | states |
|---|---|---|
| `BboxParam.ParseBbox` | src/app/api/cloud-coverage/route.ts:19-36 | an absent or empty `bbox` is "Missing bbox parameter"; otherwise it is "Invalid bbox format" unless it splits on "," into exactly four fields none of which is NaN, and then the box is those four numbers in order |
| `BboxParam.AcceptsJoinedFields` | src/app/api/ndvi/route.ts:20-27 | four comma-free fields joined by "," are accepted iff every field parses, and they come back as the box in order (split inverts join) |
| `CloudCoverageRoute.Classify` | src/app/api/cloud-coverage/route.ts:11-15 | low iff coverage <= 20, medium iff 20 < coverage <= 50, high iff coverage > 50 |
| `CloudCoverageRoute.ClassifyMonotone` | src/app/api/cloud-coverage/route.ts:11-15 | more coverage never yields a clearer bucket |
| `CloudCoverageRoute.ClassifyNumber` | src/app/api/cloud-coverage/route.ts:11-15 | on any JavaScript number: a finite value gets the classifier's bucket, NaN and +Infinity are high, -Infinity is low |
| `CloudCoverageRoute.CoverNumber` | src/app/api/cloud-coverage/route.ts:99-103 | the value compared with 20 and 50 is the reported cover, NaN exactly for an absent cover, and 0 for `null` |
| `CloudCoverageRoute.ToRecord` | src/app/api/cloud-coverage/route.ts:98-105 | the date is the datetime text up to (not including) its first 'T', or all of it; a reported cover gets the classifier's text, an absent one "high" and a `null` one "low"; coverage is copied; hasImage is true |
| `CloudCoverageRoute.ToRecords` | src/app/api/cloud-coverage/route.ts:93-107 | one record per catalog feature in order; no or non-array `features` gives none |
| `CloudCoverageRoute.Insert` | src/app/api/cloud-coverage/route.ts:109 | inserting one record keeps the multiset and keeps a newest-first list newest-first |
| `CloudCoverageRoute.SortNewestFirst` | src/app/api/cloud-coverage/route.ts:109 | the sorted list is a permutation of the built list, in non-increasing time order |
| `CloudCoverageRoute.SortStable` | src/app/api/cloud-coverage/route.ts:109 | records with equal time keep their catalog order, as the stable array sort does |
| `CloudCoverageRoute.CountsAddUp` | src/app/api/cloud-coverage/route.ts:113-117 | when every status is low, medium or high, the three filter counts add up to the number of records |
| `CloudCoverageRoute.CountStatus` | src/app/api/cloud-coverage/route.ts:114-116 | the length of the filter is the number of occurrences of the status among the records' statuses |
| `CloudCoverageRoute.StatusesPermutation` | src/app/api/cloud-coverage/route.ts:109-116 | reordering the records (as the sort does) keeps how often each status occurs, so the counts over the sorted list are those over the built list |
| `CloudCoverageRoute.Summarize` | src/app/api/cloud-coverage/route.ts:113-118 | low, medium and high are the number of occurrences of that status among the records, total is the number of records, and low + medium + high equals it for classified records |
| `CloudCoverageRoute.HandleGet` | src/app/api/cloud-coverage/route.ts:17-128 | bbox errors answer 400 with their message whatever the upstream says; a rejected token answers 500 with its text; after it a non-numeric or out-of-range `days` answers 500 "Invalid time value", then a rejected catalog 500 with its text; success iff the bbox and start date are valid and the catalog answered; the body's records are a newest-first permutation of the built records in which records of the same time keep their catalog order, and each summary count is the number of built records of that status |
| `CloudCoverageRoute.MissingBboxFirst` | src/app/api/cloud-coverage/route.ts:23-28 | a missing or empty bbox gives 400 "Missing bbox parameter" before, and independently of, any upstream answer or `days` text |
| `CloudCoverageRoute.LookbackDays` | src/app/api/cloud-coverage/route.ts:20 | an absent or empty `days` reads "30"; any other text is parsed as it is |
| `CloudCoverageRoute.NonNumericDaysFails` | src/app/api/cloud-coverage/route.ts:20-68 | with a valid bbox and an accepted token, a non-empty `days` that parses as NaN answers 500 "Invalid time value" whatever the catalog holds |
| `NdviRoute.OutputSize` | src/app/api/ndvi/route.ts:29-38 | for non-zero height: a wide box gets width 1024 and height Math.round(1024*h/w), a tall one height 1024 and width Math.round(1024*w/h); zero height gives 1024 x 0; a zero-area box gives NaN x 1024 |
| `NdviRoute.OutputSizeBounded` | src/app/api/ndvi/route.ts:36-38 | with extent on both axes both sides are finite, within [0, 1024], and one of them is 1024 |
| `NdviRoute.OutputSizeSwapInvariant` | src/app/api/ndvi/route.ts:30-32 | swapping min and max on either axis leaves the size unchanged |
| `NdviRoute.BandFrom` | src/app/api/ndvi/route.ts:128-154 | the band found from position i is the first threshold at or after i above the value, else the last band |
| `NdviRoute.Band` | src/app/api/ndvi/route.ts:128-154 | the band is the index of the first threshold above the NDVI value (all earlier thresholds are at or below it), else the thirteenth band |
| `NdviRoute.EvaluatePixel` | src/app/api/ndvi/route.ts:109-158 | a pixel of scene class 8, 9 or 10 is (0.7, 0.7, 0.7, 0.6) regardless of NDVI; any other is the ramp colour of its NDVI band with alpha 1 |
| `NdviRoute.BandMonotone` | src/app/api/ndvi/route.ts:128-154 | a higher NDVI never gets a lower band |
| `NdviRoute.BandInterval` | src/app/api/ndvi/route.ts:128-154 | band k is exactly the interval [threshold k-1, threshold k), so each value has exactly one band |
| `NdviRoute.RequestFor` | src/app/api/ndvi/route.ts:29-42 | the process request carries the box, the computed output size, a 60-day window and maximum cloud coverage 20 |
| `NdviRoute.HandleGet` | src/app/api/ndvi/route.ts:8-180 | bbox errors answer 400; for a valid bbox the route sends the request with the computed size, a 60-day window and maximum cloud coverage 20, returns the PNG it gets back, and answers 500 "Failed to get Sentinel Hub token" or "Failed to fetch NDVI data" when a request is rejected |
| `DatePicker.RingBoundsComponents` | src/components/dashboard/datepicker.tsx:48-58 | the single loop with four accumulators equals four independent min/max folds over the x and y components |
| `DatePicker.RingBounds` | src/components/dashboard/datepicker.tsx:48-58 | the four accumulators after the `forEach` over the outer ring; RingBoundsComponents states what they hold |
| `DatePicker.MinOfSpec` | src/components/dashboard/datepicker.tsx:48-58 | the folded Math.min is NaN iff some value is NaN, +Infinity on no values, otherwise the least value and one of them |
| `DatePicker.MaxOfSpec` | src/components/dashboard/datepicker.tsx:48-58 | the folded Math.max is NaN iff some value is NaN, -Infinity on no values, otherwise the greatest value and one of them |
| `DatePicker.FoldsBySet` | src/components/dashboard/datepicker.tsx:53-58 | the min and max folds depend only on which values occur |
| `DatePicker.RingBoundsPermutation` | src/components/dashboard/datepicker.tsx:53-58 | reordering the ring's positions does not change the bounds |
| `DatePicker.RingBox` | src/components/dashboard/datepicker.tsx:47-58 | a finite box exists iff the ring is non-empty and every position has two components; it contains every position and each side equals some position's coordinate |
| `DatePicker.BboxText` | src/components/dashboard/datepicker.tsx:46-60 | a bbox string is produced iff the polygon has a first ring |
| `DatePicker.BboxTextFields` | src/components/dashboard/datepicker.tsx:60 | the string splits on "," into exactly minX, minY, maxX, maxY, in that order |
| `DatePicker.BboxTextIgnoresHoles` | src/components/dashboard/datepicker.tsx:47 | hole rings never change the string |
| `DatePicker.EmptyRingText` | src/components/dashboard/datepicker.tsx:48-60 | an empty outer ring yields "Infinity,Infinity,-Infinity,-Infinity" |
| `DatePicker.BboxTextAccepted` | src/components/dashboard/datepicker.tsx:60-62 | if the four sides of the ring's box print without a comma and `Number()` reads each printed side back, the cloud-coverage route accepts the picker's string for a well-formed ring and recovers exactly its box |
| `DatePicker.FirstMatch` | src/components/dashboard/datepicker.tsx:82 | the index found has the day's date and no earlier record does; none only when no record has that date |
| `DatePicker.Find` | src/components/dashboard/datepicker.tsx:82 | `find` returns the record at the first matching index, or nothing |
| `DatePicker.CoverageStatus` | src/components/dashboard/datepicker.tsx:80-84 | the first record's status, or "unknown" when there is none or its status is empty |
| `DatePicker.DateDisabledSpec` | src/components/dashboard/datepicker.tsx:99-103 | a day is enabled iff its first record exists and has an image |
| `DatePicker.DateDisabled` | src/components/dashboard/datepicker.tsx:99-103 | a day is disabled when `find` has no record for it or that record has no image; DateDisabledSpec states it without `find` |
| `CloudCalendar.LastMatch` | src/components/cloud-calendar.tsx:62-64 | the index found has the day's date and no later record does; none only when no record has that date |
| `CloudCalendar.BuildMap` | src/components/cloud-calendar.tsx:59-67 | a day is a key iff some record has that date, and maps to the last such record |
| `CloudCalendar.CoverageMap` | src/components/cloud-calendar.tsx:48-67 | a null or absent list gives the empty map; otherwise last write wins |
| `CloudCalendar.MapPresenceAgrees` | src/components/cloud-calendar.tsx:59-67 | the calendar has an entry for a day iff the date picker's `find` finds one |
| `CloudCalendar.MapAgreesWithFind` | src/components/cloud-calendar.tsx:62-64 | with distinct dates the map entry is the record `find` returns |
| `CloudCalendar.DayDisabled` | src/components/cloud-calendar.tsx:84 | a day is disabled unless the map holds a record for it with an image; DisabledAgreesWithPicker relates it to the date picker's rule |
| `CloudCalendar.RepeatedDateDisagrees` | src/components/cloud-calendar.tsx:62-64 | with a repeated date the map holds the last record while the picker reports the first |
| `CloudCalendar.DisabledAgreesWithPicker` | src/components/cloud-calendar.tsx:81-84 | when every record has an image the calendar's disabled rule equals the picker's |
| `CloudCalendar.CloudColor` | src/components/cloud-calendar.tsx:87-98 | "low", "medium" and "high" get green, yellow and red, and gray is given exactly to every other status |
| `CloudCalendar.ClassifiedColor` | src/components/cloud-calendar.tsx:87-98 | a classified coverage gets the colour of its bucket, never gray |
| `CloudCalendar.AvailableDates` | src/components/cloud-calendar.tsx:140-142 | a date is available iff some record with that date has an image; no list gives none |
| `CloudCalendar.AvailableAgreesWithMap` | src/components/cloud-calendar.tsx:140-142 | when every record has an image, availability equals the rendered day being enabled |
| `CloudCalendar.DateTextInjective` | src/components/cloud-calendar.tsx:146-155 | distinct days of the window format to distinct texts |
| `CloudCalendar.DisabledDays` | src/components/cloud-calendar.tsx:136-159 | exactly the window days (2025-03-01..2025-05-30) whose date is not available, strictly increasing; all 91 days when there is no list |
| `CloudCalendar.HandleSelect` | src/components/cloud-calendar.tsx:70-76 | the date is always stored; `onDateSelect` is called and the popover closed only for a defined date |
| `CloudCalendar.SelectedDateInfo` | src/components/cloud-calendar.tsx:162-167 | nothing when nothing is selected, else the map's record for the selected day if any |
| `CloudCalendar.SelectThenInfo` | src/components/cloud-calendar.tsx:162-167 | after selecting a day, the info shown is that day's last record |
| `GeoJson.IsPolygon` | src/lib/utils.ts:9-13 | true iff the geometry is defined and of kind Polygon |
| `GeoJson.IsPolygonIgnoresCoordinates` | src/lib/utils.ts:12 | only the tag matters: a ringless Polygon passes, a MultiPolygon or undefined never does |
| `MapComponent.IsValidGeoJson` | src/components/dashboard/map-component.tsx:22-32 | holds iff the value is a plain object typed "Feature" whose `geometry` is a plain object having both `type` and `coordinates` members |
| `MapComponent.AnyGeometryKindPasses` | src/components/dashboard/map-component.tsx:22-32 | every geometry kind that carries `coordinates` passes, whatever they hold; only a GeometryCollection fails |
| `MapComponent.Render` | src/components/dashboard/map-component.tsx:38-77 | the boundary layer is drawn exactly when the map is fitted, and both happen iff the boundaries are a valid Feature |
| `MapComponent.PolygonFeatureDrawn` | src/components/dashboard/map-component.tsx:68-77 | a Polygon feature is always drawn |
| `FarmCard.GetCoordinates` | src/components/farm/farm-card.tsx:27-39 | for any value: a result exists iff boundaries, geometry, coordinates, the first ring and its first position are all truthy and that position has length at least 2, and the result is that position |
| `FarmCard.GetCoordinatesOfPolygon` | src/components/farm/farm-card.tsx:27-39 | on a Polygon feature: the first outer-ring position when there is one with at least two components, else undefined |
| `FarmCard.FarmLocation` | src/components/farm/farm-card.tsx:44-52 | latitude is position[1] and longitude position[0]; both stay undefined without a position |
| `FarmCard.FarmLocationOfPolygon` | src/components/farm/farm-card.tsx:44-52 | for a Polygon whose first position is [lng, lat, ...] the card asks for exactly that point |
| `Sidebar.IsActive` | src/components/sidebar.tsx:25-27 | active iff the pathname equals the path or continues it with "/"; never without a pathname |
| `Sidebar.SiblingNotActive` | src/components/sidebar.tsx:26 | a pathname that extends the path without a "/" (e.g. "/farmsx" for "/farms") is not active |
| `Sidebar.ActiveNested` | src/components/sidebar.tsx:26 | two paths active together are equal or one lies below the other |
| `Sidebar.AtMostOneMenuEntryActive` | src/components/sidebar.tsx:44-68 | at most one of "/dashboard", "/farms", "/settings" is active for any pathname |

## Left out

- Network and authentication: the Sentinel Hub token, catalog and process requests, the weather and
  geocoding proxies, database writes and the auth middleware are I/O. Their answers are parameters
  (`Upstream`, `ProcessAnswer`).
- The catalog request body (the bbox array, the date range text, the collection and `limit: 100`): it
  only shapes the upstream request, whose answer is the `Upstream` parameter. Only whether the start
  date can be formatted is modelled.
- `CloudCoverageRoute.StartDateValid`: `subDays` works in local time, so the start date's time value
  can differ from `now - days * 86400000` by a daylight-saving shift; the range test ignores that.
- A cloud cover of another JavaScript type (a string or a boolean, say) is outside the model; a cover
  is a number, absent or `null`.
- `DatePicker.BboxTextAccepted`: the picker puts its string into the URL `?bbox=${bboxString}`
  unencoded, and query decoding turns a "+" (as in "1e+21") into a space. That URL step is not
  modelled; the lemma hands the string straight to the route's guard.
- `Number()` string parsing is the `number` parameter. It yields a finite value or NaN, so a field that
  `Number()` reads as ±Infinity is outside the model.
- `BboxParam.ParseBbox`: does not fix how `Number()` reads a field. For example, `Number("")` is 0, so
  an empty field passes; that follows only from the parameter chosen.
- `new Date(date).getTime()` is the `time` parameter. An unparseable date (NaN time) and the
  inconsistent comparator it would give are not modelled.
- `date-fns` formatting is abstract: a day is its "yyyy-MM-dd" text. The calendar window's 91 days are
  formatted explicitly.
- Finite number-to-text rendering is the `fmt` parameter; only the sentinels' texts are fixed.
- `NdviRoute.EvaluatePixel`: takes the NDVI value as input, so the division (nir - red) / (nir + red)
  and its NaN/Infinity results when nir + red = 0 are not modelled.
- IEEE-754 rounding, -0 and NaN as a JavaScript value are outside the model: reals are exact.
  `Math.round` is floor(x + 1/2).
- `FarmCard.GetCoordinates`: `length >= 2` is true only for a numeric length. A non-numeric `length`
  member that JavaScript would coerce to a number (e.g. the string "5") reads as false here.
- `JsValues.Get`: a property read on `null` or `undefined` throws in JavaScript. Every modelled call
  site guards it, so it reads as `undefined`.
- `CloudCoverageRoute.ToRecord`: a catalog feature missing `properties` or `datetime` throws and
  answers 500. Features are typed here, so that path is not modelled.
- Polygon area: it is computed by the external turf library, together with its `/ 10000` hectare
  conversion in src/components/farm/map-content.tsx, which is not part of this model.
- React rendering, hooks, popovers, badges, the date picker's own `onSelect` handler and the tooltip
  legend text are presentation only.
- `CloudCalendar.SelectedDateInfo`: `null` (nothing selected) and `undefined` (no record) both read
  as `None`. The component only tests the result for truthiness.

=== FILE: bbox_param.dfy ===
/** The `bbox` query parameter shared by the cloud-coverage and NDVI routes:
    comma-separated `minX,minY,maxX,maxY`, each field read with `Number()`. */
module BboxParam {
  import opened Wrappers
  import opened Text

  /** A parsed bounding box, in the order the query string gives it. */
  datatype Box = Box(minX: real, minY: real, maxX: real, maxY: real)

  datatype BboxError = MissingBbox | InvalidBbox

  /** Every bbox error is answered with HTTP status 400. */
  const BadRequest: nat := 400

  function Message(e: BboxError): string {
    match e
    case MissingBbox => "Missing bbox parameter"
    case InvalidBbox => "Invalid bbox format"
  }

  /** A `number` parser is JavaScript's `Number()` on one field: `None` is NaN. */
  predicate AllNumeric(fields: seq<string>, number: string -> Option<real>) {
    forall i :: 0 <= i < |fields| ==> number(fields[i]).Some?
  }

  /** `searchParams.get("bbox")`, then the two guards of the route: an absent or
      empty parameter is missing; otherwise it must split into exactly four
      fields, none of them NaN. */
  function ParseBbox(param: Option<string>, number: string -> Option<real>): (r: Result<Box, BboxError>)
    ensures r == Err(MissingBbox) <==> param == None || param == Some("")
    ensures r == Err(InvalidBbox) <==>
      param.Some? && param.value != "" &&
      (|Split(param.value, ',')| != 4 || !AllNumeric(Split(param.value, ','), number))
    ensures r.Ok? ==>
      var f := Split(param.value, ',');
      |f| == 4 && r.value == Box(number(f[0]).value, number(f[1]).value, number(f[2]).value, number(f[3]).value)
  {
    if param == None || param.value == "" then Err(MissingBbox)
    else
      var fields := Split(param.value, ',');
      if |fields| != 4 || !AllNumeric(fields, number) then Err(InvalidBbox)
      else
        assert number(fields[0]).Some? && number(fields[1]).Some?;
        assert number(fields[2]).Some? && number(fields[3]).Some?;
        Ok(Box(number(fields[0]).value, number(fields[1]).value,
               number(fields[2]).value, number(fields[3]).value))
  }

  /** Four comma-free fields joined by "," are accepted exactly when each one
      parses, and then they are the box, in order. */
  lemma AcceptsJoinedFields(f: seq<string>, number: string -> Option<real>)
    requires |f| == 4
    requires forall i :: 0 <= i < 4 ==> ',' !in f[i]
    ensures ParseBbox(Some(Join(f, ',')), number).Ok? <==> AllNumeric(f, number)
    ensures AllNumeric(f, number) ==>
      ParseBbox(Some(Join(f, ',')), number) ==
        Ok(Box(number(f[0]).value, number(f[1]).value, number(f[2]).value, number(f[3]).value))
  {
    SplitJoin(f, ',');
    assert Join(f, ',') != "" by {
      assert Join(f, ',') == f[0] + [','] + Join(f[1..], ',');
    }
  }
}

=== FILE: cloud_calendar.dfy ===
/** The cloud-coverage calendar: its date-to-record map, the per-day
    disabled rule and cloud colour, the list of disabled days over its fixed
    window, and selection. As in the date picker, a day is represented by its
    "yyyy-MM-dd" text; `None` for the coverage list stands for both `null`
    and an absent prop. */
module CloudCalendar {
  import opened Wrappers
  import opened CloudCoverageRoute
  import DatePicker

  /** The last index whose record has date `day`, if any. */
  function LastMatch(s: seq<CoverageRecord>, day: string): (r: Option<nat>)
    ensures r.None? <==> forall j :: 0 <= j < |s| ==> s[j].date != day
    ensures r.Some? ==> r.value < |s| && s[r.value].date == day
    ensures r.Some? ==> forall j :: r.value < j < |s| ==> s[j].date != day
    decreases |s|
  {
    if s == [] then None
    else if s[|s| - 1].date == day then Some(|s| - 1)
    else LastMatch(s[..|s| - 1], day)
  }

  /** `map.set(item.date, item)` for each item in order. */
  function BuildMap(s: seq<CoverageRecord>): (m: map<string, CoverageRecord>)
    ensures forall day :: day in m <==> LastMatch(s, day).Some?
    ensures forall day :: day in m ==> m[day] == s[LastMatch(s, day).value]
    decreases |s|
  {
    if s == [] then map[]
    else
      var init := s[..|s| - 1];
      var m := BuildMap(init);
      assert forall day :: day != s[|s| - 1].date ==> LastMatch(s, day) == LastMatch(init, day);
      m[s[|s| - 1].date := s[|s| - 1]]
  }

  /** `coverageMap`: last write wins; no list gives an empty map. */
  function CoverageMap(items: Option<seq<CoverageRecord>>): (m: map<string, CoverageRecord>)
    ensures items.None? ==> m == map[]
    ensures items.Some? ==> forall day :: day in m <==> LastMatch(items.value, day).Some?
    ensures items.Some? ==> forall day :: day in m ==> m[day] == items.value[LastMatch(items.value, day).value]
  {
    match items
    case None => map[]
    case Some(s) => BuildMap(s)
  }

  /** A day has a map entry exactly when the date picker's `find` finds one. */
  lemma MapPresenceAgrees(s: seq<CoverageRecord>, day: string)
    ensures day in CoverageMap(Some(s)) <==> DatePicker.Find(s, day).Some?
  {
  }

  predicate DistinctDates(s: seq<CoverageRecord>) {
    forall i, j :: 0 <= i < j < |s| ==> s[i].date != s[j].date
  }

  /** With one record per date, the calendar's map and the picker's
      first-match lookup return the same record. */
  lemma MapAgreesWithFind(s: seq<CoverageRecord>, day: string)
    requires DistinctDates(s)
    ensures day in CoverageMap(Some(s)) ==> DatePicker.Find(s, day) == Some(CoverageMap(Some(s))[day])
  {
    if day in CoverageMap(Some(s)) {
      var i := LastMatch(s, day).value;
      var k := DatePicker.FirstMatch(s, day).value;
      assert i == k;
    }
  }

  /** With a repeated date they part: the map keeps the last record, `find`
      the first. */
  lemma RepeatedDateDisagrees()
    ensures var s := [CoverageRecord("2025-03-02", Reported(10.0), "low", true),
                      CoverageRecord("2025-03-02", Reported(80.0), "high", true)];
      && CoverageMap(Some(s))["2025-03-02"].status == "high"
      && DatePicker.CoverageStatus(s, "2025-03-02") == "low"
  {
    var s := [CoverageRecord("2025-03-02", Reported(10.0), "low", true),
              CoverageRecord("2025-03-02", Reported(80.0), "high", true)];
    assert LastMatch(s, "2025-03-02") == Some(1);
    assert DatePicker.FirstMatch(s, "2025-03-02") == Some(0);
  }

  /** `renderDay`'s rule: `!coverageData?.hasImage`. */
  predicate DayDisabled(m: map<string, CoverageRecord>, day: string) {
    !(day in m && m[day].hasImage)
  }

  /** When every record has an image, as the route always sets, the calendar
      and the date picker disable the same days, repeated dates or not. */
  lemma DisabledAgreesWithPicker(s: seq<CoverageRecord>, day: string)
    requires forall i :: 0 <= i < |s| ==> s[i].hasImage
    ensures DayDisabled(CoverageMap(Some(s)), day) <==> DatePicker.DateDisabled(s, day)
  {
  }

  /** `getCloudColor`. */
  function CloudColor(status: string): (c: string)
    ensures status == "low" ==> c == "text-green-500"
    ensures status == "medium" ==> c == "text-yellow-500"
    ensures status == "high" ==> c == "text-red-500"
    ensures c == "text-gray-300" <==> status !in {"low", "medium", "high"}
  {
    match status
    case "low" => "text-green-500"
    case "medium" => "text-yellow-500"
    case "high" => "text-red-500"
    case _ => "text-gray-300"
  }

  /** A status the route produced gets the colour of its bucket, never gray. */
  lemma ClassifiedColor(coverage: real)
    ensures CloudColor(StatusText(Classify(coverage))) ==
      (if coverage <= 20.0 then "text-green-500"
       else if coverage <= 50.0 then "text-yellow-500"
       else "text-red-500")
  {
  }

  /** `availableDates`: the dates of records that have an image. */
  function AvailableDates(items: Option<seq<CoverageRecord>>): (a: set<string>)
    ensures items.None? ==> a == {}
    ensures items.Some? ==> forall day :: day in a <==>
      exists i :: 0 <= i < |items.value| && items.value[i].date == day && items.value[i].hasImage
  {
    match items
    case None => {}
    case Some(s) => set i | 0 <= i < |s| && s[i].hasImage :: s[i].date
  }

  /** When every record has an image, a date is available exactly when the
      day renders enabled. */
  lemma AvailableAgreesWithMap(s: seq<CoverageRecord>, day: string)
    requires forall i :: 0 <= i < |s| ==> s[i].hasImage
    ensures day in AvailableDates(Some(s)) <==> !DayDisabled(CoverageMap(Some(s)), day)
  {
    if day in CoverageMap(Some(s)) {
      var i := LastMatch(s, day).value;
      assert s[i].date == day && s[i].hasImage;
    }
  }

  /** The fixed window runs from 2025-03-01 to 2025-05-30: 31 + 30 + 30 days. */
  const WindowDays: nat := 91

  function Digit(n: nat): char
    requires n < 10
  {
    ('0' as int + n) as char
  }

  function TwoDigits(n: nat): string
    requires n < 100
  {
    [Digit(n / 10), Digit(n % 10)]
  }

  /** `format(day, "yyyy-MM-dd")` for the day `offset` days after 2025-03-01. */
  function DateText(offset: nat): (t: string)
    requires offset < WindowDays
    ensures |t| == 10
  {
    if offset < 31 then "2025-03-" + TwoDigits(offset + 1)
    else if offset < 61 then "2025-04-" + TwoDigits(offset - 30)
    else "2025-05-" + TwoDigits(offset - 60)
  }

  lemma TwoDigitsInjective(a: nat, b: nat)
    requires a < 100 && b < 100 && TwoDigits(a) == TwoDigits(b)
    ensures a == b
  {
    assert TwoDigits(a)[0] == TwoDigits(b)[0];
    assert TwoDigits(a)[1] == TwoDigits(b)[1];
  }

  /** Distinct days of the window have distinct texts. */
  lemma DateTextInjective(a: nat, b: nat)
    requires a < WindowDays && b < WindowDays && DateText(a) == DateText(b)
    ensures a == b
  {
    var ta, tb := DateText(a), DateText(b);
    assert ta[6] == tb[6];
    assert ta[8..] == tb[8..];
    if a < 31 && b < 31 {
      assert ta[8..] == TwoDigits(a + 1) && tb[8..] == TwoDigits(b + 1);
      TwoDigitsInjective(a + 1, b + 1);
    } else if 31 <= a < 61 && 31 <= b < 61 {
      assert ta[8..] == TwoDigits(a - 30) && tb[8..] == TwoDigits(b - 30);
      TwoDigitsInjective(a - 30, b - 30);
    } else if 61 <= a && 61 <= b {
      assert ta[8..] == TwoDigits(a - 60) && tb[8..] == TwoDigits(b - 60);
      TwoDigitsInjective(a - 60, b - 60);
    }
  }

  /** `disabledDays`: walking the window a day at a time, the offsets of the
      days whose text is not an available date, in increasing order. */
  method DisabledDays(items: Option<seq<CoverageRecord>>) returns (days: seq<nat>)
    ensures forall i, j :: 0 <= i < j < |days| ==> days[i] < days[j]
    ensures forall d: nat :: d in days <==> d < WindowDays && DateText(d) !in AvailableDates(items)
    ensures items.None? ==> |days| == WindowDays
  {
    var available := AvailableDates(items);
    days := [];
    var current := 0;
    while current < WindowDays
      invariant current <= WindowDays
      invariant forall i :: 0 <= i < |days| ==> days[i] < current
      invariant forall i, j :: 0 <= i < j < |days| ==> days[i] < days[j]
      invariant forall d: nat :: d in days <==> d < current && DateText(d) !in available
      invariant items.None? ==> |days| == current
    {
      if DateText(current) !in available {
        days := days + [current];
      }
      current := current + 1;
    }
  }

  /** The calendar's selection state. */
  datatype CalendarState = CalendarState(selected: Option<string>, open: bool)

  /** The new state and the day passed to `onDateSelect`, if it was called. */
  datatype Selection = Selection(state: CalendarState, notified: Option<string>)

  /** `handleSelect`: always store the day; notify and close only for a day. */
  function HandleSelect(s: CalendarState, date: Option<string>): (r: Selection)
    ensures r.state.selected == date
    ensures r.notified == date
    ensures r.state.open == (s.open && date.None?)
  {
    match date
    case None => Selection(CalendarState(None, s.open), None)
    case Some(d) => Selection(CalendarState(Some(d), false), Some(d))
  }

  /** `getSelectedDateInfo`: nothing without a selection, else the map's
      record for the selected day (`null` and `undefined` both read as `None`). */
  function SelectedDateInfo(s: CalendarState, m: map<string, CoverageRecord>): (r: Option<CoverageRecord>)
    ensures s.selected.None? ==> r.None?
    ensures r.Some? <==> s.selected.Some? && s.selected.value in m
    ensures r.Some? ==> r.value == m[s.selected.value]
  {
    match s.selected
    case None => None
    case Some(d) => if d in m then Some(m[d]) else None
  }

  /** After selecting a day, the info shown is that day's last record. */
  lemma SelectThenInfo(s: CalendarState, day: string, items: seq<CoverageRecord>)
    ensures var info := SelectedDateInfo(HandleSelect(s, Some(day)).state, CoverageMap(Some(items)));
      && (info.Some? <==> LastMatch(items, day).Some?)
      && (info.Some? ==> info.value == items[LastMatch(items, day).value])
  {
  }
}

=== FILE: cloud_coverage_route.dfy ===
/** The `GET /api/cloud-coverage` route: bbox validation, classification of
    each satellite scene's cloud cover, newest-first ordering and the summary
    counts. The OAuth and catalog requests are replaced by their answer. */
module CloudCoverageRoute {
  import opened Wrappers
  import opened Text
  import opened BboxParam
  import opened JsNumbers

  datatype Status = Low | Medium | High

  /** The status as it travels in the JSON body. */
  function StatusText(s: Status): string {
    match s
    case Low => "low"
    case Medium => "medium"
    case High => "high"
  }

  /** Buckets ordered from clearest to cloudiest. */
  function Rank(s: Status): nat {
    match s
    case Low => 0
    case Medium => 1
    case High => 2
  }

  /** `getCloudCoverageStatus`: at most 20% is low, at most 50% medium, else high. */
  function Classify(coverage: real): (s: Status)
    ensures s == Low <==> coverage <= 20.0
    ensures s == Medium <==> 20.0 < coverage <= 50.0
    ensures s == High <==> 50.0 < coverage
  {
    if coverage <= 20.0 then Low
    else if coverage <= 50.0 then Medium
    else High
  }

  /** More cloud never gives a clearer bucket. */
  lemma ClassifyMonotone(a: real, b: real)
    requires a <= b
    ensures Rank(Classify(a)) <= Rank(Classify(b))
  {
  }

  /** `getCloudCoverageStatus` on any JavaScript number: both comparisons are
      false for NaN, so NaN is high. */
  function ClassifyNumber(n: Number): (s: Status)
    ensures n.Finite? ==> s == Classify(n.r)
    ensures n == NaN ==> s == High
    ensures n == NegInf ==> s == Low
    ensures n == PosInf ==> s == High
  {
    if n != NaN && Le(n, Finite(20.0)) then Low
    else if n != NaN && Le(n, Finite(50.0)) then Medium
    else High
  }

  /** `properties["eo:cloud_cover"]` as it arrives in the catalog JSON: a
      number, no such property (`undefined`), or `null`. */
  datatype CloudCover = Reported(percent: real) | NoCover | NullCover

  /** The number `coverage <= 20` compares: `undefined` converts to NaN and
      `null` to 0. */
  function CoverNumber(c: CloudCover): (n: Number)
    ensures n.Finite? || n == NaN
    ensures n == NaN <==> c == NoCover
    ensures c.Reported? ==> n == Finite(c.percent)
    ensures c == NullCover ==> n == Finite(0.0)
  {
    match c
    case Reported(p) => Finite(p)
    case NoCover => NaN
    case NullCover => Finite(0.0)
  }

  /** One entry of the `cloudCoverage` array; the dashboard components read
      the same shape back from the JSON body. */
  datatype CoverageRecord = CoverageRecord(date: string, coverage: CloudCover, status: string, hasImage: bool)

  /** The two properties the route reads from a catalog feature:
      `properties.datetime` and `properties["eo:cloud_cover"]`. */
  datatype CatalogFeature = CatalogFeature(datetime: string, cloudCover: CloudCover)

  /** The record built for one catalog feature. A feature without a cloud
      cover is kept and classified high; a `null` one is classified low. */
  function ToRecord(f: CatalogFeature): (r: CoverageRecord)
    ensures 'T' !in r.date && r.date <= f.datetime
    ensures r.date == f.datetime || f.datetime[|r.date|] == 'T'
    ensures r.coverage == f.cloudCover
    ensures f.cloudCover.Reported? ==> r.status == StatusText(Classify(f.cloudCover.percent))
    ensures f.cloudCover == NoCover ==> r.status == "high"
    ensures f.cloudCover == NullCover ==> r.status == "low"
    ensures r.hasImage
  {
    var date := BeforeFirst(f.datetime, 'T');
    CoverageRecord(date, f.cloudCover, StatusText(ClassifyNumber(CoverNumber(f.cloudCover))), true)
  }

  /** The records for `catalogData.features`, in catalog order; a missing or
      non-array `features` gives none. */
  function ToRecords(features: Option<seq<CatalogFeature>>): (rs: seq<CoverageRecord>)
    ensures features.None? ==> rs == []
    ensures features.Some? ==> |rs| == |features.value|
    ensures features.Some? ==> forall i :: 0 <= i < |rs| ==> rs[i] == ToRecord(features.value[i])
  {
    match features
    case None => []
    case Some(fs) => seq(|fs|, i requires 0 <= i < |fs| => ToRecord(fs[i]))
  }

  /** Newest first, where `time` is `new Date(date).getTime()`. */
  predicate NewestFirst(s: seq<CoverageRecord>, time: string -> int) {
    forall i, j :: 0 <= i < j < |s| ==> time(s[j].date) <= time(s[i].date)
  }

  /** No record in `s` is newer than the instant `k`. */
  predicate NoNewerThan(s: seq<CoverageRecord>, time: string -> int, k: int) {
    forall i :: 0 <= i < |s| ==> time(s[i].date) <= k
  }

  lemma NoNewerThanPermutation(a: seq<CoverageRecord>, b: seq<CoverageRecord>, time: string -> int, k: int)
    requires multiset(a) == multiset(b) && NoNewerThan(b, time, k)
    ensures NoNewerThan(a, time, k)
  {
    forall i | 0 <= i < |a| ensures time(a[i].date) <= k {
      assert a[i] in multiset(b);
      var j :| 0 <= j < |b| && b[j] == a[i];
    }
  }

  lemma NewestFirstCons(h: CoverageRecord, rest: seq<CoverageRecord>, time: string -> int)
    requires NewestFirst(rest, time) && NoNewerThan(rest, time, time(h.date))
    ensures NewestFirst([h] + rest, time)
  {
    var s := [h] + rest;
    forall i, j | 0 <= i < j < |s| ensures time(s[j].date) <= time(s[i].date) {
      assert s[j] == rest[j - 1];
      if i > 0 { assert s[i] == rest[i - 1]; }
    }
  }

  /** Places `x` after every record at least as new, before the older ones. */
  function Insert(t: seq<CoverageRecord>, x: CoverageRecord, time: string -> int): (r: seq<CoverageRecord>)
    ensures multiset(r) == multiset(t) + multiset{x}
    ensures |r| == |t| + 1
    ensures NewestFirst(t, time) ==> NewestFirst(r, time)
    decreases |t|
  {
    if t == [] || time(t[0].date) < time(x.date) then
      if NewestFirst(t, time) then
        assert NoNewerThan(t, time, time(x.date)) by {
          forall i | 0 <= i < |t| ensures time(t[i].date) <= time(x.date) {
            assert time(t[i].date) <= time(t[0].date);
          }
        }
        NewestFirstCons(x, t, time);
        [x] + t
      else [x] + t
    else
      var rest := Insert(t[1..], x, time);
      assert t == [t[0]] + t[1..];
      if NewestFirst(t, time) then
        assert NoNewerThan(t[1..] + [x], time, time(t[0].date)) by {
          forall i | 0 <= i < |t| ensures time((t[1..] + [x])[i].date) <= time(t[0].date) {
            if i < |t| - 1 { assert (t[1..] + [x])[i] == t[i + 1]; }
          }
        }
        NoNewerThanPermutation(rest, t[1..] + [x], time, time(t[0].date));
        NewestFirstCons(t[0], rest, time);
        [t[0]] + rest
      else [t[0]] + rest
  }

  /** `cloudCoverageData.sort(...)` with the date comparator: a stable sort,
      newest first. */
  function SortNewestFirst(rs: seq<CoverageRecord>, time: string -> int): (out: seq<CoverageRecord>)
    ensures multiset(out) == multiset(rs)
    ensures |out| == |rs|
    ensures NewestFirst(out, time)
    decreases |rs|
  {
    if rs == [] then []
    else
      assert rs == rs[..|rs| - 1] + [rs[|rs| - 1]];
      Insert(SortNewestFirst(rs[..|rs| - 1], time), rs[|rs| - 1], time)
  }

  /** The records whose date reads as the instant `k`, in order. */
  function AtTime(s: seq<CoverageRecord>, time: string -> int, k: int): seq<CoverageRecord>
    decreases |s|
  {
    if s == [] then []
    else (if time(s[0].date) == k then [s[0]] else []) + AtTime(s[1..], time, k)
  }

  lemma {:induction false} AtTimeAppend(s: seq<CoverageRecord>, x: CoverageRecord, time: string -> int, k: int)
    ensures AtTime(s + [x], time, k) == AtTime(s, time, k) + (if time(x.date) == k then [x] else [])
    decreases |s|
  {
    if s != [] {
      assert (s + [x])[1..] == s[1..] + [x];
      AtTimeAppend(s[1..], x, time, k);
    }
  }

  /** In a newest-first list whose head is older than `k`, nothing is at `k`. */
  lemma {:induction false} AtTimeNone(t: seq<CoverageRecord>, time: string -> int, k: int)
    requires NewestFirst(t, time)
    requires t != [] ==> time(t[0].date) < k
    ensures AtTime(t, time, k) == []
    decreases |t|
  {
    if t != [] {
      if |t| > 1 {
        assert time(t[1].date) <= time(t[0].date);
      }
      AtTimeNone(t[1..], time, k);
    }
  }

  lemma {:induction false} InsertStable(t: seq<CoverageRecord>, x: CoverageRecord, time: string -> int, k: int)
    requires NewestFirst(t, time)
    ensures AtTime(Insert(t, x, time), time, k) == AtTime(t, time, k) + (if time(x.date) == k then [x] else [])
    decreases |t|
  {
    if t == [] || time(t[0].date) < time(x.date) {
      assert ([x] + t)[1..] == t;
      if time(x.date) == k {
        AtTimeNone(t, time, k);
      }
    } else {
      var rest := Insert(t[1..], x, time);
      assert ([t[0]] + rest)[1..] == rest;
      InsertStable(t[1..], x, time, k);
    }
  }

  /** Records with the same date keep their catalog order (the sort is stable). */
  lemma {:induction false} SortStable(rs: seq<CoverageRecord>, time: string -> int, k: int)
    ensures AtTime(SortNewestFirst(rs, time), time, k) == AtTime(rs, time, k)
    decreases |rs|
  {
    if rs != [] {
      var init, last := rs[..|rs| - 1], rs[|rs| - 1];
      assert rs == init + [last];
      var sorted := SortNewestFirst(init, time);
      assert SortNewestFirst(rs, time) == Insert(sorted, last, time);
      var tail := if time(last.date) == k then [last] else [];
      calc {
        AtTime(SortNewestFirst(rs, time), time, k);
        { InsertStable(sorted, last, time, k); }
        AtTime(sorted, time, k) + tail;
        { SortStable(init, time, k); }
        AtTime(init, time, k) + tail;
        { AtTimeAppend(init, last, time, k); }
        AtTime(rs, time, k);
      }
    }
  }

  datatype Summary = Summary(low: nat, medium: nat, high: nat, total: nat)

  /** The `status` of each record, in order. */
  function Statuses(rs: seq<CoverageRecord>): (ss: seq<string>)
    ensures |ss| == |rs| && forall i :: 0 <= i < |rs| ==> ss[i] == rs[i].status
  {
    seq(|rs|, i requires 0 <= i < |rs| => rs[i].status)
  }

  /** `cloudCoverageData.filter((d) => d.status === st).length`: how many
      times `st` occurs among the statuses. */
  function CountStatus(rs: seq<CoverageRecord>, st: string): (n: nat)
    ensures n == multiset(Statuses(rs))[st]
    decreases |rs|
  {
    if rs == [] then 0
    else
      assert Statuses(rs) == [rs[0].status] + Statuses(rs[1..]);
      (if rs[0].status == st then 1 else 0) + CountStatus(rs[1..], st)
  }

  /** Taking the same record out of two permutations of each other leaves
      permutations of each other. */
  lemma RemoveFromPermutation(a: seq<CoverageRecord>, b: seq<CoverageRecord>, j: nat)
    requires multiset(a) == multiset(b) && a != [] && j < |b| && b[j] == a[0]
    ensures multiset(a[1..]) == multiset(b[..j] + b[j + 1..])
  {
    var x := a[0];
    assert b == b[..j] + [x] + b[j + 1..];
    assert a == [x] + a[1..];
    assert multiset(a[1..]) == multiset(a) - multiset{x};
    assert multiset(b[..j] + b[j + 1..]) == multiset(b) - multiset{x};
  }

  /** Putting one more element in the same multiset on both sides. */
  lemma InsertBoth<T>(y: T, s: seq<T>, p: seq<T>, q: seq<T>)
    requires multiset(s) == multiset(p + q)
    ensures multiset([y] + s) == multiset(p + [y] + q)
  {
    calc {
      multiset([y] + s);
      multiset{y} + multiset(s);
      multiset{y} + multiset(p) + multiset(q);
      multiset(p + [y] + q);
    }
  }

  /** The statuses of a list cut around position `j`. */
  lemma StatusesAround(b: seq<CoverageRecord>, j: nat)
    requires j < |b|
    ensures Statuses(b) == Statuses(b[..j]) + [b[j].status] + Statuses(b[j + 1..])
    ensures Statuses(b[..j] + b[j + 1..]) == Statuses(b[..j]) + Statuses(b[j + 1..])
  {
  }

  /** Reordering the records does not change which statuses occur how often. */
  lemma {:induction false} StatusesPermutation(a: seq<CoverageRecord>, b: seq<CoverageRecord>)
    requires multiset(a) == multiset(b)
    ensures multiset(Statuses(a)) == multiset(Statuses(b))
    decreases |a|
  {
    if a == [] {
      assert |b| == |multiset(b)| == 0;
    } else {
      assert a[0] in multiset(b);
      var j :| 0 <= j < |b| && b[j] == a[0];
      RemoveFromPermutation(a, b, j);
      StatusesPermutation(a[1..], b[..j] + b[j + 1..]);
      StatusesAround(b, j);
      assert Statuses(a) == [a[0].status] + Statuses(a[1..]);
      InsertBoth(a[0].status, Statuses(a[1..]), Statuses(b[..j]), Statuses(b[j + 1..]));
    }
  }

  predicate KnownStatuses(rs: seq<CoverageRecord>) {
    forall i :: 0 <= i < |rs| ==> rs[i].status in {"low", "medium", "high"}
  }

  /** The three bucket counts of records with a known status add up to their number. */
  lemma {:induction false} CountsAddUp(rs: seq<CoverageRecord>)
    ensures KnownStatuses(rs) ==>
      CountStatus(rs, "low") + CountStatus(rs, "medium") + CountStatus(rs, "high") == |rs|
    decreases |rs|
  {
    if rs != [] && KnownStatuses(rs) {
      assert KnownStatuses(rs[1..]) by {
        forall i | 0 <= i < |rs| - 1 ensures rs[1..][i].status in {"low", "medium", "high"} {
          assert rs[1..][i] == rs[i + 1];
        }
      }
      CountsAddUp(rs[1..]);
    }
  }

  /** The `summary` object of the response body: each bucket counts the
      records of its status. */
  function Summarize(rs: seq<CoverageRecord>): (s: Summary)
    ensures s.low == multiset(Statuses(rs))["low"]
    ensures s.medium == multiset(Statuses(rs))["medium"]
    ensures s.high == multiset(Statuses(rs))["high"]
    ensures s.total == |rs|
    ensures KnownStatuses(rs) ==> s.low + s.medium + s.high == s.total
  {
    CountsAddUp(rs);
    Summary(CountStatus(rs, "low"), CountStatus(rs, "medium"), CountStatus(rs, "high"), |rs|)
  }

  /** What the Sentinel Hub token and catalog requests answered. */
  datatype Upstream =
    | TokenRejected(tokenText: string)
    | CatalogRejected(catalogText: string)
    | CatalogAnswer(features: Option<seq<CatalogFeature>>)

  datatype Report = Report(cloudCoverage: seq<CoverageRecord>, summary: Summary)

  datatype Response = Success(report: Report) | Failure(status: nat, error: string)

  /** Any failure after validation is caught and answered with status 500. */
  const InternalError: nat := 500

  /** `parseInt(searchParams.get("days") || "30", 10)`, with `parseInt`
      standing for the built-in and `None` for NaN: an absent or empty
      parameter falls back to "30". */
  function LookbackDays(days: Option<string>, parseInt: string -> Option<int>): (n: Option<int>)
    ensures days.None? || days == Some("") ==> n == parseInt("30")
    ensures days.Some? && days.value != "" ==> n == parseInt(days.value)
  {
    if days.None? || days.value == "" then parseInt("30") else parseInt(days.value)
  }

  /** A `Date` holds time values within 8.64e15 ms of the epoch (section
      21.4.1.1 of ECMA-262); one day is 86 400 000 ms. */
  const MaxTimeValue: int := 8_640_000_000_000_000
  const DayMs: int := 86_400_000

  /** `format(subDays(now, days), "yyyy-MM-dd")` succeeds: the day count is a
      number and the start date stays within the range of `Date`. Otherwise
      `subDays` gives an Invalid Date and `format` throws RangeError
      "Invalid time value". `now` is the clock, in ms since the epoch. */
  predicate StartDateValid(days: Option<int>, now: int) {
    days.Some? && -MaxTimeValue <= now - days.value * DayMs <= MaxTimeValue
  }

  /** The route handler. `number` is `Number()` on one bbox field, `parseInt`
      the built-in on the `days` text, `now` the clock and `time` is
      `new Date(date).getTime()`. */
  function HandleGet(bbox: Option<string>, days: Option<string>, upstream: Upstream,
                     number: string -> Option<real>, parseInt: string -> Option<int>,
                     now: int, time: string -> int): (resp: Response)
    ensures ParseBbox(bbox, number).Err? ==>
      resp == Failure(BadRequest, Message(ParseBbox(bbox, number).error))
    ensures ParseBbox(bbox, number).Ok? && upstream.TokenRejected? ==>
      resp == Failure(InternalError, "Failed to get Sentinel Hub token: " + upstream.tokenText)
    ensures ParseBbox(bbox, number).Ok? && !upstream.TokenRejected? &&
            !StartDateValid(LookbackDays(days, parseInt), now) ==>
      resp == Failure(InternalError, "Invalid time value")
    ensures ParseBbox(bbox, number).Ok? && upstream.CatalogRejected? &&
            StartDateValid(LookbackDays(days, parseInt), now) ==>
      resp == Failure(InternalError, "Failed to fetch catalog data: " + upstream.catalogText)
    ensures resp.Success? <==>
      ParseBbox(bbox, number).Ok? && upstream.CatalogAnswer? &&
      StartDateValid(LookbackDays(days, parseInt), now)
    ensures resp.Success? ==>
      var built := ToRecords(upstream.features);
      var out := resp.report.cloudCoverage;
      var summary := resp.report.summary;
      && multiset(out) == multiset(built)
      && NewestFirst(out, time)
      && (forall k :: AtTime(out, time, k) == AtTime(built, time, k))
      && summary.low == multiset(Statuses(built))["low"]
      && summary.medium == multiset(Statuses(built))["medium"]
      && summary.high == multiset(Statuses(built))["high"]
      && summary.low + summary.medium + summary.high == summary.total == |out|
  {
    match ParseBbox(bbox, number)
    case Err(e) => Failure(BadRequest, Message(e))
    case Ok(_) =>
      if upstream.TokenRejected? then
        Failure(InternalError, "Failed to get Sentinel Hub token: " + upstream.tokenText)
      else if !StartDateValid(LookbackDays(days, parseInt), now) then
        Failure(InternalError, "Invalid time value")
      else if upstream.CatalogRejected? then
        Failure(InternalError, "Failed to fetch catalog data: " + upstream.catalogText)
      else
        var built := ToRecords(upstream.features);
        var sorted := SortNewestFirst(built, time);
        assert KnownStatuses(sorted) by {
          forall i | 0 <= i < |sorted| ensures sorted[i].status in {"low", "medium", "high"} {
            assert sorted[i] in multiset(built);
          }
        }
        StatusesPermutation(sorted, built);
        assert forall k :: AtTime(sorted, time, k) == AtTime(built, time, k) by {
          forall k ensures AtTime(sorted, time, k) == AtTime(built, time, k) {
            SortStable(built, time, k);
          }
        }
        Success(Report(sorted, Summarize(sorted)))
  }

  /** A missing bbox is rejected before any upstream request or the `days`
      parameter matters. */
  lemma MissingBboxFirst(u1: Upstream, u2: Upstream, d1: Option<string>, d2: Option<string>,
                         number: string -> Option<real>, parseInt: string -> Option<int>,
                         now: int, time: string -> int)
    ensures HandleGet(None, d1, u1, number, parseInt, now, time)
              == HandleGet(None, d2, u2, number, parseInt, now, time)
              == Failure(400, "Missing bbox parameter")
    ensures HandleGet(Some(""), d1, u1, number, parseInt, now, time) == Failure(400, "Missing bbox parameter")
  {
  }

  /** A `days` text that is not a number answers 500 "Invalid time value" once
      the token request succeeded, whatever the catalog holds. */
  lemma NonNumericDaysFails(bbox: string, days: string, u: Upstream,
                            number: string -> Option<real>, parseInt: string -> Option<int>,
                            now: int, time: string -> int)
    requires ParseBbox(Some(bbox), number).Ok? && !u.TokenRejected?
    requires days != "" && parseInt(days).None?
    ensures HandleGet(Some(bbox), Some(days), u, number, parseInt, now, time)
              == Failure(500, "Invalid time value")
  {
  }
}

=== FILE: datepicker.dfy ===
/** The dashboard date picker: the bbox string it derives from the farm's
    polygon before asking the cloud-coverage route, and its per-day lookups
    in the returned records. A day is represented by its "yyyy-MM-dd" text,
    which is all the component ever uses of it. */
module DatePicker {
  import opened Wrappers
  import opened Text
  import opened JsNumbers
  import opened BboxParam
  import opened CloudCoverageRoute

  /** A GeoJSON position: longitude, latitude, and possibly more. */
  type Position = seq<real>

  type Ring = seq<Position>

  /** The destructured `x` and `y` of `([x, y])`; a missing component is
      `undefined`, which `Math.min`/`Math.max` turn into NaN. */
  function X(p: Position): Number { if |p| >= 1 then Finite(p[0]) else NaN }

  function Y(p: Position): Number { if |p| >= 2 then Finite(p[1]) else NaN }

  datatype Bounds = Bounds(minX: Number, minY: Number, maxX: Number, maxY: Number)

  /** The accumulators before the loop: ±Infinity. */
  const Unset: Bounds := Bounds(PosInf, PosInf, NegInf, NegInf)

  /** One `forEach` step. */
  function Visit(b: Bounds, p: Position): Bounds {
    Bounds(Min(b.minX, X(p)), Min(b.minY, Y(p)), Max(b.maxX, X(p)), Max(b.maxY, Y(p)))
  }

  /** The four accumulators after visiting the ring's positions in order. */
  function RingBounds(ring: Ring): Bounds
    decreases |ring|
  {
    if ring == [] then Unset
    else Visit(RingBounds(ring[..|ring| - 1]), ring[|ring| - 1])
  }

  function Xs(ring: Ring): (xs: seq<Number>)
    ensures |xs| == |ring| && forall i :: 0 <= i < |ring| ==> xs[i] == X(ring[i])
  {
    seq(|ring|, i requires 0 <= i < |ring| => X(ring[i]))
  }

  function Ys(ring: Ring): (ys: seq<Number>)
    ensures |ys| == |ring| && forall i :: 0 <= i < |ring| ==> ys[i] == Y(ring[i])
  {
    seq(|ring|, i requires 0 <= i < |ring| => Y(ring[i]))
  }

  /** `Math.min` folded over `xs` from +Infinity. */
  function MinOf(xs: seq<Number>): Number
    decreases |xs|
  {
    if xs == [] then PosInf else Min(MinOf(xs[..|xs| - 1]), xs[|xs| - 1])
  }

  /** `Math.max` folded over `xs` from -Infinity. */
  function MaxOf(xs: seq<Number>): Number
    decreases |xs|
  {
    if xs == [] then NegInf else Max(MaxOf(xs[..|xs| - 1]), xs[|xs| - 1])
  }

  /** The single loop with four accumulators computes four independent folds. */
  lemma {:induction false} RingBoundsComponents(ring: Ring)
    ensures RingBounds(ring) == Bounds(MinOf(Xs(ring)), MinOf(Ys(ring)), MaxOf(Xs(ring)), MaxOf(Ys(ring)))
    decreases |ring|
  {
    if ring != [] {
      var init := ring[..|ring| - 1];
      RingBoundsComponents(init);
      assert Xs(ring)[..|ring| - 1] == Xs(init);
      assert Ys(ring)[..|ring| - 1] == Ys(init);
    }
  }

  /** The fold of `Math.min` is NaN exactly when some value is NaN, +Infinity
      on no values, and otherwise the least value. */
  lemma {:induction false} MinOfSpec(xs: seq<Number>)
    ensures MinOf(xs) == NaN <==> NaN in xs
    ensures xs == [] ==> MinOf(xs) == PosInf
    ensures NaN !in xs && xs != [] ==>
      MinOf(xs) in xs && forall i :: 0 <= i < |xs| ==> Le(MinOf(xs), xs[i])
    decreases |xs|
  {
    if xs != [] {
      var init, last := xs[..|xs| - 1], xs[|xs| - 1];
      assert xs == init + [last];
      MinOfSpec(init);
      if NaN !in xs {
        var m := MinOf(xs);
        forall i | 0 <= i < |xs| ensures Le(m, xs[i]) {
          if i < |xs| - 1 {
            assert xs[i] == init[i];
            if m != last { LeTransitive(m, MinOf(init), xs[i]); }
            else if init != [] && m != MinOf(init) { LeTransitive(m, MinOf(init), xs[i]); }
          }
        }
      }
    }
  }

  /** The fold of `Math.max`: NaN exactly when some value is NaN, -Infinity
      on no values, and otherwise the greatest value. */
  lemma {:induction false} MaxOfSpec(xs: seq<Number>)
    ensures MaxOf(xs) == NaN <==> NaN in xs
    ensures xs == [] ==> MaxOf(xs) == NegInf
    ensures NaN !in xs && xs != [] ==>
      MaxOf(xs) in xs && forall i :: 0 <= i < |xs| ==> Le(xs[i], MaxOf(xs))
    decreases |xs|
  {
    if xs != [] {
      var init, last := xs[..|xs| - 1], xs[|xs| - 1];
      assert xs == init + [last];
      MaxOfSpec(init);
      if NaN !in xs {
        var m := MaxOf(xs);
        forall i | 0 <= i < |xs| ensures Le(xs[i], m) {
          if i < |xs| - 1 {
            assert xs[i] == init[i];
            if m != last { LeTransitive(xs[i], MaxOf(init), m); }
            else if init != [] && m != MaxOf(init) { LeTransitive(xs[i], MaxOf(init), m); }
          }
        }
      }
    }
  }

  /** The min and max folds depend only on which values occur. */
  lemma FoldsBySet(xs: seq<Number>, ys: seq<Number>)
    requires forall v :: v in xs <==> v in ys
    ensures MinOf(xs) == MinOf(ys) && MaxOf(xs) == MaxOf(ys)
  {
    MinOfSpec(xs);
    MinOfSpec(ys);
    MaxOfSpec(xs);
    MaxOfSpec(ys);
    if xs != [] && ys != [] && NaN !in xs {
      var a, b := MinOf(xs), MinOf(ys);
      var i :| 0 <= i < |xs| && xs[i] == b;
      var j :| 0 <= j < |ys| && ys[j] == a;
      LeAntisymmetric(a, b);
      var c, d := MaxOf(xs), MaxOf(ys);
      var k :| 0 <= k < |xs| && xs[k] == d;
      var l :| 0 <= l < |ys| && ys[l] == c;
      LeAntisymmetric(c, d);
    }
  }

  /** The accumulated bounds do not depend on the order of the ring's positions. */
  lemma RingBoundsPermutation(r1: Ring, r2: Ring)
    requires multiset(r1) == multiset(r2)
    ensures RingBounds(r1) == RingBounds(r2)
  {
    RingBoundsComponents(r1);
    RingBoundsComponents(r2);
    forall v ensures v in Xs(r1) <==> v in Xs(r2) {
      if v in Xs(r1) {
        var i :| 0 <= i < |r1| && Xs(r1)[i] == v;
        assert r1[i] in multiset(r2);
        var j :| 0 <= j < |r2| && r2[j] == r1[i];
        assert Xs(r2)[j] == v;
      }
      if v in Xs(r2) {
        var i :| 0 <= i < |r2| && Xs(r2)[i] == v;
        assert r2[i] in multiset(r1);
        var j :| 0 <= j < |r1| && r1[j] == r2[i];
        assert Xs(r1)[j] == v;
      }
    }
    forall v ensures v in Ys(r1) <==> v in Ys(r2) {
      if v in Ys(r1) {
        var i :| 0 <= i < |r1| && Ys(r1)[i] == v;
        assert r1[i] in multiset(r2);
        var j :| 0 <= j < |r2| && r2[j] == r1[i];
        assert Ys(r2)[j] == v;
      }
      if v in Ys(r2) {
        var i :| 0 <= i < |r2| && Ys(r2)[i] == v;
        assert r2[i] in multiset(r1);
        var j :| 0 <= j < |r1| && r1[j] == r2[i];
        assert Ys(r1)[j] == v;
      }
    }
    FoldsBySet(Xs(r1), Xs(r2));
    FoldsBySet(Ys(r1), Ys(r2));
  }

  /** Every position has both a longitude and a latitude. */
  predicate WellFormed(ring: Ring) {
    forall i :: 0 <= i < |ring| ==> |ring[i]| >= 2
  }

  /** The box the bounds describe, when all four are finite: exactly when the
      ring has positions and each has two components. It contains every
      position and each side touches one. */
  function RingBox(ring: Ring): (r: Option<Box>)
    ensures r.Some? <==> ring != [] && WellFormed(ring)
    ensures r.Some? ==>
      var b := r.value;
      && (forall i :: 0 <= i < |ring| ==>
            b.minX <= ring[i][0] <= b.maxX && b.minY <= ring[i][1] <= b.maxY)
      && (exists i :: 0 <= i < |ring| && ring[i][0] == b.minX)
      && (exists i :: 0 <= i < |ring| && ring[i][1] == b.minY)
      && (exists i :: 0 <= i < |ring| && ring[i][0] == b.maxX)
      && (exists i :: 0 <= i < |ring| && ring[i][1] == b.maxY)
  {
    var bounds := RingBounds(ring);
    RingBoundsComponents(ring);
    MinOfSpec(Xs(ring));
    MinOfSpec(Ys(ring));
    MaxOfSpec(Xs(ring));
    MaxOfSpec(Ys(ring));
    if bounds.minX.Finite? && bounds.minY.Finite? && bounds.maxX.Finite? && bounds.maxY.Finite? then
      assert WellFormed(ring) by {
        forall i | 0 <= i < |ring| ensures |ring[i]| >= 2 {
          assert Ys(ring)[i] != NaN;
        }
      }
      Some(Box(bounds.minX.r, bounds.minY.r, bounds.maxX.r, bounds.maxY.r))
    else
      None
  }

  /** The bbox string of the effect: `${minX},${minY},${maxX},${maxY}` over
      the outer ring `coordinates[0]`, with `fmt` rendering finite numbers.
      Without any ring, `coordinates[0].forEach` throws and no request is made
      (`None`). */
  function BboxText(coordinates: seq<Ring>, fmt: real -> string): (r: Option<string>)
    ensures r.None? <==> coordinates == []
  {
    if coordinates == [] then None
    else
      var b := RingBounds(coordinates[0]);
      Some(Join([ToText(b.minX, fmt), ToText(b.minY, fmt), ToText(b.maxX, fmt), ToText(b.maxY, fmt)], ','))
  }

  /** The text is four comma-separated fields, in the order minX, minY, maxX,
      maxY, when no rendered number contains a comma. */
  lemma BboxTextFields(coordinates: seq<Ring>, fmt: real -> string)
    requires coordinates != []
    requires forall x :: ',' !in fmt(x)
    ensures var b := RingBounds(coordinates[0]);
      Split(BboxText(coordinates, fmt).value, ',') ==
        [ToText(b.minX, fmt), ToText(b.minY, fmt), ToText(b.maxX, fmt), ToText(b.maxY, fmt)]
  {
    var b := RingBounds(coordinates[0]);
    SplitJoin([ToText(b.minX, fmt), ToText(b.minY, fmt), ToText(b.maxX, fmt), ToText(b.maxY, fmt)], ',');
  }

  /** Hole rings never contribute: only the outer ring is read. */
  lemma BboxTextIgnoresHoles(outer: Ring, holes: seq<Ring>, fmt: real -> string)
    ensures BboxText([outer] + holes, fmt) == BboxText([outer], fmt)
  {
  }

  /** An empty outer ring sends the untouched sentinels. */
  lemma EmptyRingText(fmt: real -> string)
    ensures BboxText([[]], fmt) == Some("Infinity,Infinity,-Infinity,-Infinity")
  {
    var ring: Ring := [];
    var b := RingBounds(ring);
    assert b == Unset;
    var f := [ToText(b.minX, fmt), ToText(b.minY, fmt), ToText(b.maxX, fmt), ToText(b.maxY, fmt)];
    assert f == ["Infinity", "Infinity", "-Infinity", "-Infinity"];
    assert BboxText([ring], fmt) == Some(Join(f, ','));
    JoinFour(f[0], f[1], f[2], f[3]);
    var text := "Infinity" + "," + "Infinity" + "," + "-Infinity" + "," + "-Infinity";
    assert Join(f, ',') == text;
    assert text == "Infinity,Infinity,-Infinity,-Infinity";
  }

  lemma JoinFour(a: string, b: string, c: string, d: string)
    ensures Join([a, b, c, d], ',') == a + "," + b + "," + c + "," + d
  {
    assert [a, b, c, d][1..] == [b, c, d];
    assert [b, c, d][1..] == [c, d];
    assert [c, d][1..] == [d];
    assert Join([d], ',') == d;
    assert Join([c, d], ',') == c + "," + d;
    assert Join([b, c, d], ',') == b + "," + (c + "," + d);
    assert Join([a, b, c, d], ',') == a + "," + (b + "," + (c + "," + d));
  }

  /** `x` prints without a comma and `Number()` reads its text back as `x`. */
  predicate PrintsBack(x: real, fmt: real -> string, number: string -> Option<real>) {
    ',' !in fmt(x) && number(fmt(x)) == Some(x)
  }

  /** When the four sides of the box print without commas and `Number()`
      reads their text back, the cloud-coverage route accepts the picker's
      bbox string for a well-formed outer ring and recovers exactly its box. */
  lemma BboxTextAccepted(coordinates: seq<Ring>, fmt: real -> string, number: string -> Option<real>)
    requires coordinates != [] && RingBox(coordinates[0]).Some?
    requires var b := RingBox(coordinates[0]).value;
      && PrintsBack(b.minX, fmt, number) && PrintsBack(b.minY, fmt, number)
      && PrintsBack(b.maxX, fmt, number) && PrintsBack(b.maxY, fmt, number)
    ensures ParseBbox(BboxText(coordinates, fmt), number) == Ok(RingBox(coordinates[0]).value)
  {
    var b := RingBounds(coordinates[0]);
    var f := [ToText(b.minX, fmt), ToText(b.minY, fmt), ToText(b.maxX, fmt), ToText(b.maxY, fmt)];
    AcceptsJoinedFields(f, number);
  }

  /** `cloudCoverage.find((d) => d.date === dateStr)` as an index: the first
      record for the day, if any. */
  function FirstMatch(items: seq<CoverageRecord>, day: string): (r: Option<nat>)
    ensures r.None? <==> forall j :: 0 <= j < |items| ==> items[j].date != day
    ensures r.Some? ==> r.value < |items| && items[r.value].date == day
    ensures r.Some? ==> forall j :: 0 <= j < r.value ==> items[j].date != day
    decreases |items|
  {
    if items == [] then None
    else if items[0].date == day then Some(0)
    else
      match FirstMatch(items[1..], day)
      case None => None
      case Some(i) => Some(i + 1)
  }

  /** The record `find` returns. */
  function Find(items: seq<CoverageRecord>, day: string): (r: Option<CoverageRecord>)
    ensures r.Some? <==> FirstMatch(items, day).Some?
    ensures r.Some? ==> r.value == items[FirstMatch(items, day).value]
  {
    match FirstMatch(items, day)
    case None => None
    case Some(i) => Some(items[i])
  }

  /** `getCoverageStatus`: the first record's status, or "unknown" when there
      is no record or its status is empty (`||` falls through on ""). */
  function CoverageStatus(items: seq<CoverageRecord>, day: string): (s: string)
    ensures s == "unknown" <==>
      FirstMatch(items, day).None? || items[FirstMatch(items, day).value].status in {"", "unknown"}
    ensures s != "unknown" ==> s == items[FirstMatch(items, day).value].status
  {
    match Find(items, day)
    case None => "unknown"
    case Some(rec) => if rec.status != "" then rec.status else "unknown"
  }

  /** `disabledDates`: `!coverageData?.hasImage`. */
  predicate DateDisabled(items: seq<CoverageRecord>, day: string) {
    match Find(items, day)
    case None => true
    case Some(rec) => !rec.hasImage
  }

  /** A day is selectable exactly when its first record has an image. */
  lemma DateDisabledSpec(items: seq<CoverageRecord>, day: string)
    ensures !DateDisabled(items, day) <==>
      exists i :: 0 <= i < |items| && items[i].date == day && items[i].hasImage &&
        forall j :: 0 <= j < i ==> items[j].date != day
  {
    if !DateDisabled(items, day) {
      var i := FirstMatch(items, day).value;
      assert items[i].date == day && items[i].hasImage;
    }
  }
}

=== FILE: farm_card.dfy ===
/** The farm card: the first position of a farm's boundary, read as its
    longitude and latitude for reverse geocoding. */
module FarmCard {
  import opened Wrappers
  import opened JsValues
  import opened GeoJson

  /** `x.length >= 2`; only numeric lengths are compared (see README). */
  predicate LengthAtLeastTwo(v: Value) {
    var len := Get(v, "length");
    len.Num? && len.n >= 2.0
  }

  /** `getCoordinates`: the first position of the first ring, when every step
      to it is truthy and it has at least two components; `None` for
      `undefined`. */
  function GetCoordinates(boundaries: Value): (r: Option<Value>)
    ensures !Truthy(boundaries) ==> r.None?
    ensures r.Some? ==>
      var ring := At(Get(Get(boundaries, "geometry"), "coordinates"), 0);
      && Truthy(Get(boundaries, "geometry"))
      && Truthy(Get(Get(boundaries, "geometry"), "coordinates"))
      && Truthy(ring)
      && r.value == At(ring, 0) && Truthy(r.value) && LengthAtLeastTwo(r.value)
    ensures
      var geometry := Get(boundaries, "geometry");
      var coordinates := Get(geometry, "coordinates");
      var ring := At(coordinates, 0);
      (&& Truthy(boundaries) && Truthy(geometry) && Truthy(coordinates) && Truthy(ring)
       && Truthy(At(ring, 0)) && LengthAtLeastTwo(At(ring, 0)))
      ==> r == Some(At(ring, 0))
  {
    if !Truthy(boundaries) then None
    else
      var geometry := Get(boundaries, "geometry");
      if !Truthy(geometry) then None
      else
        var coordinates := Get(geometry, "coordinates");
        if !Truthy(coordinates) then None
        else
          var ring := At(coordinates, 0);
          if !Truthy(ring) then None
          else
            var first := At(ring, 0);
            if Truthy(first) && LengthAtLeastTwo(first) then Some(first) else None
  }

  /** On a Polygon feature: the first position of the outer ring when
      there is one with two or more components, and nothing otherwise. */
  lemma GetCoordinatesOfPolygon(rings: seq<seq<seq<real>>>)
    ensures GetCoordinates(PolygonFeature(rings)) ==
      if rings != [] && rings[0] != [] && |rings[0][0]| >= 2
      then Some(EncodePosition(rings[0][0])) else None
  {
    var f := PolygonFeature(rings);
    var geometry := Get(f, "geometry");
    assert geometry == EncodeGeometry(Geometry(Polygon, EncodeRings(rings)));
    var coordinates := Get(geometry, "coordinates");
    assert coordinates == EncodeRings(rings);
    if rings != [] {
      var ring := At(coordinates, 0);
      assert ring == EncodeRing(rings[0]);
      if rings[0] != [] {
        var first := At(ring, 0);
        assert first == EncodePosition(rings[0][0]);
        assert Get(first, "length") == Num(|rings[0][0]| as real);
      }
    }
  }

  /** A reverse-geocoding query point; `Undefined` where never assigned. */
  datatype Location = Location(latitude: Value, longitude: Value)

  /** `FarmCard`'s `latitude = coordinates[1]`, `longitude = coordinates[0]`. */
  function FarmLocation(boundaries: Value): (loc: Location)
    ensures GetCoordinates(boundaries).None? ==> loc == Location(Undefined, Undefined)
    ensures GetCoordinates(boundaries).Some? ==>
      loc == Location(At(GetCoordinates(boundaries).value, 1), At(GetCoordinates(boundaries).value, 0))
  {
    match GetCoordinates(boundaries)
    case None => Location(Undefined, Undefined)
    case Some(c) => Location(At(c, 1), At(c, 0))
  }

  /** For a Polygon feature whose first position is `[lng, lat, ...]`, the card
      asks for exactly that point. */
  lemma FarmLocationOfPolygon(rings: seq<seq<seq<real>>>)
    requires rings != [] && rings[0] != [] && |rings[0][0]| >= 2
    ensures FarmLocation(PolygonFeature(rings)) == Location(Num(rings[0][0][1]), Num(rings[0][0][0]))
  {
    GetCoordinatesOfPolygon(rings);
  }
}

=== FILE: geojson.dfy ===
/** GeoJSON geometries as the application types them, the `isPolygon` guard,
    and how typed features look as plain JavaScript values. */
module GeoJson {
  import opened Wrappers
  import opened JsValues

  datatype GeometryKind =
    | Point | MultiPoint | LineString | MultiLineString
    | Polygon | MultiPolygon | GeometryCollection

  /** The `type` member of a geometry object. */
  function KindTag(k: GeometryKind): string {
    match k
    case Point => "Point"
    case MultiPoint => "MultiPoint"
    case LineString => "LineString"
    case MultiLineString => "MultiLineString"
    case Polygon => "Polygon"
    case MultiPolygon => "MultiPolygon"
    case GeometryCollection => "GeometryCollection"
  }

  /** A geometry: its kind and its `coordinates` (`geometries` for a
      collection), left as an arbitrary value. */
  datatype Geometry = Geometry(kind: GeometryKind, body: Value)

  /** `isPolygon`: defined and tagged "Polygon". */
  function IsPolygon(geometry: Option<Geometry>): (r: bool)
    ensures r <==> geometry.Some? && geometry.value.kind == Polygon
  {
    geometry.Some? && KindTag(geometry.value.kind) == "Polygon"
  }

  /** Only the tag matters: the coordinates are never looked at, so even a
      Polygon without any ring passes and a MultiPolygon never does. */
  lemma IsPolygonIgnoresCoordinates(k: GeometryKind, c1: Value, c2: Value)
    ensures IsPolygon(Some(Geometry(k, c1))) == IsPolygon(Some(Geometry(k, c2)))
    ensures IsPolygon(Some(Geometry(Polygon, Arr([]))))
    ensures !IsPolygon(Some(Geometry(MultiPolygon, c1)))
    ensures !IsPolygon(None)
  {
  }

  /** The member that carries a geometry's body. */
  function BodyKey(k: GeometryKind): string {
    if k == GeometryCollection then "geometries" else "coordinates"
  }

  function EncodeGeometry(g: Geometry): Value {
    Obj(map["type" := Str(KindTag(g.kind)), BodyKey(g.kind) := g.body])
  }

  /** A Feature wrapping `g`, with empty properties. */
  function EncodeFeature(g: Geometry): Value {
    Obj(map["type" := Str("Feature"), "geometry" := EncodeGeometry(g), "properties" := Obj(map[])])
  }

  function EncodePosition(p: seq<real>): (v: Value)
    ensures v.Arr? && |v.items| == |p|
    ensures forall i :: 0 <= i < |p| ==> v.items[i] == Num(p[i])
  {
    Arr(seq(|p|, i requires 0 <= i < |p| => Num(p[i])))
  }

  function EncodeRing(ring: seq<seq<real>>): (v: Value)
    ensures v.Arr? && |v.items| == |ring|
    ensures forall i :: 0 <= i < |ring| ==> v.items[i] == EncodePosition(ring[i])
  {
    Arr(seq(|ring|, i requires 0 <= i < |ring| => EncodePosition(ring[i])))
  }

  /** The `coordinates` of a Polygon: its rings, outer ring first. */
  function EncodeRings(rings: seq<seq<seq<real>>>): (v: Value)
    ensures v.Arr? && |v.items| == |rings|
    ensures forall i :: 0 <= i < |rings| ==> v.items[i] == EncodeRing(rings[i])
  {
    Arr(seq(|rings|, i requires 0 <= i < |rings| => EncodeRing(rings[i])))
  }

  /** A Polygon feature as `FarmCard` and `MapComponent` are typed to receive. */
  function PolygonFeature(rings: seq<seq<seq<real>>>): Value {
    EncodeFeature(Geometry(Polygon, EncodeRings(rings)))
  }
}

=== FILE: js_number.dfy ===
/** JavaScript numbers as far as the model needs them: finite values as
    exact reals, the two infinities and NaN, with `Math.min`, `Math.max`,
    `Math.round` and template-literal rendering. */
module JsNumbers {

  datatype Number = Finite(r: real) | PosInf | NegInf | NaN

  /** The order on non-NaN numbers, infinities included. */
  predicate Le(a: Number, b: Number)
    requires a != NaN && b != NaN
  {
    match (a, b)
    case (NegInf, _) => true
    case (_, PosInf) => true
    case (Finite(x), Finite(y)) => x <= y
    case _ => false
  }

  /** `Math.min(a, b)`: NaN as soon as either argument is NaN. */
  function Min(a: Number, b: Number): (m: Number)
    ensures m == NaN <==> a == NaN || b == NaN
    ensures m != NaN ==> (m == a || m == b) && Le(m, a) && Le(m, b)
  {
    if a == NaN || b == NaN then NaN
    else if Le(a, b) then a
    else b
  }

  /** `Math.max(a, b)`: NaN as soon as either argument is NaN. */
  function Max(a: Number, b: Number): (m: Number)
    ensures m == NaN <==> a == NaN || b == NaN
    ensures m != NaN ==> (m == a || m == b) && Le(a, m) && Le(b, m)
  {
    if a == NaN || b == NaN then NaN
    else if Le(a, b) then b
    else a
  }

  /** `Math.round` on a finite value: the nearest integer, halves upward. */
  function Round(x: real): (n: int)
    ensures x - 1.0 / 2.0 < n as real <= x + 1.0 / 2.0
  {
    (x + 1.0 / 2.0).Floor
  }

  /** `${n}` in a template literal; `fmt` renders finite values. */
  function ToText(n: Number, fmt: real -> string): string {
    match n
    case Finite(x) => fmt(x)
    case PosInf => "Infinity"
    case NegInf => "-Infinity"
    case NaN => "NaN"
  }

  lemma LeAntisymmetric(a: Number, b: Number)
    requires a != NaN && b != NaN
    requires Le(a, b) && Le(b, a)
    ensures a == b
  {
  }

  lemma LeTransitive(a: Number, b: Number, c: Number)
    requires a != NaN && b != NaN && c != NaN
    requires Le(a, b) && Le(b, c)
    ensures Le(a, c)
  {
  }
}

=== FILE: js_value.dfy ===
/** JSON-like JavaScript values, as the dashboard reads them from storage or
    the network, with the parts of the language's semantics that the modelled
    checks rely on: truthiness, `typeof`, property reads and the `in` test. */
module JsValues {
  import opened Wrappers

  datatype Value =
    | Undefined
    | Null
    | Bool(b: bool)
    | Num(n: real)
    | Str(s: string)
    | Arr(items: seq<Value>)
    | Obj(fields: map<string, Value>)

  /** JavaScript truthiness (NaN and -0 are outside the model). */
  predicate Truthy(v: Value) {
    match v
    case Undefined => false
    case Null => false
    case Bool(b) => b
    case Num(n) => n != 0.0
    case Str(s) => s != ""
    case Arr(_) => true
    case Obj(_) => true
  }

  /** The `typeof` operator; arrays and `null` both report "object". */
  function TypeOf(v: Value): string {
    match v
    case Undefined => "undefined"
    case Null => "object"
    case Bool(_) => "boolean"
    case Num(_) => "number"
    case Str(_) => "string"
    case Arr(_) => "object"
    case Obj(_) => "object"
  }

  predicate IsDigit(c: char) { '0' <= c <= '9' }

  predicate AllDigits(s: string) {
    forall i :: 0 <= i < |s| ==> IsDigit(s[i])
  }

  /** The decimal value of a string of digits. */
  function DigitsValue(s: string): nat
    requires AllDigits(s)
  {
    if |s| == 0 then 0
    else DigitsValue(s[..|s| - 1]) * 10 + (s[|s| - 1] as int - '0' as int)
  }

  /** The canonical decimal text of `i`, which is how an array index is
      spelled as a property key. */
  function IndexKey(i: nat): (k: string)
    ensures |k| >= 1 && AllDigits(k)
    ensures k[0] != '0' || |k| == 1
  {
    if i < 10 then [('0' as int + i) as char]
    else IndexKey(i / 10) + [('0' as int + i % 10) as char]
  }

  /** A property key names an array index when it is canonical decimal text. */
  function KeyIndex(k: string): (r: Option<nat>)
    ensures r.Some? ==> IndexKey(r.value) == k
  {
    if |k| >= 1 && AllDigits(k) && (k[0] != '0' || |k| == 1) then
      KeyIndexRoundTrip(k);
      Some(DigitsValue(k))
    else None
  }

  /** Every canonical decimal string is the index key of its value. */
  lemma {:induction false} KeyIndexRoundTrip(k: string)
    requires |k| >= 1 && AllDigits(k) && (k[0] != '0' || |k| == 1)
    ensures IndexKey(DigitsValue(k)) == k
    decreases |k|
  {
    var n := DigitsValue(k);
    var last := k[|k| - 1] as int - '0' as int;
    if |k| == 1 {
      assert DigitsValue(k[..0]) == 0;
    } else {
      var init := k[..|k| - 1];
      assert init[0] == k[0];
      assert init[0] != '0';
      KeyIndexRoundTrip(init);
      PositiveLead(init);
      assert n / 10 == DigitsValue(init) && n % 10 == last;
      assert k == init + [k[|k| - 1]];
    }
  }

  /** A digit string without a leading zero has value at least 1. */
  lemma {:induction false} PositiveLead(k: string)
    requires |k| >= 1 && AllDigits(k) && k[0] != '0'
    ensures DigitsValue(k) >= 1
    decreases |k|
  {
    if |k| > 1 {
      var init := k[..|k| - 1];
      assert init[0] == k[0];
      PositiveLead(init);
    }
  }

  /** Reading an index key back gives the index. */
  lemma {:induction false} IndexKeyRoundTrip(i: nat)
    ensures KeyIndex(IndexKey(i)) == Some(i)
  {
    var k := IndexKey(i);
    KeyIndexRoundTrip(k);
    IndexKeyInjective(DigitsValue(k), i);
  }

  lemma {:induction false} IndexKeyInjective(i: nat, j: nat)
    requires IndexKey(i) == IndexKey(j)
    ensures i == j
    decreases i
  {
    var ki, kj := IndexKey(i), IndexKey(j);
    if i >= 10 && j >= 10 {
      assert IndexKey(i / 10) == ki[..|ki| - 1];
      assert IndexKey(j / 10) == kj[..|kj| - 1];
      IndexKeyInjective(i / 10, j / 10);
      assert ki[|ki| - 1] == kj[|kj| - 1];
    }
  }

  /** A property read `v[k]`. Reads on `null` and `undefined` throw in the
      source; every call site guards them, so they read as `undefined` here. */
  function Get(v: Value, k: string): Value {
    match v
    case Obj(fields) => if k in fields then fields[k] else Undefined
    case Arr(items) =>
      if k == "length" then Num(|items| as real)
      else
        var i := KeyIndex(k);
        if i.Some? && i.value < |items| then items[i.value] else Undefined
    case Str(s) =>
      if k == "length" then Num(|s| as real)
      else
        var i := KeyIndex(k);
        if i.Some? && i.value < |s| then Str([s[i.value]]) else Undefined
    case _ => Undefined
  }

  /** An element read `v[i]`. */
  function At(v: Value, i: nat): (r: Value)
    ensures v.Arr? ==> r == (if i < |v.items| then v.items[i] else Undefined)
  {
    IndexKeyRoundTrip(i);
    Get(v, IndexKey(i))
  }

  /** The `k in v` test on an object value (the source applies it only
      after `typeof v === "object"` and truthiness, i.e. to arrays and
      plain objects). */
  predicate Has(v: Value, k: string) {
    match v
    case Obj(fields) => k in fields
    case Arr(items) =>
      k == "length" || (KeyIndex(k).Some? && KeyIndex(k).value < |items|)
    case _ => false
  }
}

=== FILE: map_component.dfy ===
/** The farm map: the `isValidGeoJSON` guard and what it gates. */
module MapComponent {
  import opened JsValues
  import opened GeoJson

  /** `isValidGeoJSON`, conjunct by conjunct. */
  function IsValidGeoJson(data: Value): (r: bool)
    ensures r <==>
      && data.Obj?
      && "type" in data.fields && data.fields["type"] == Str("Feature")
      && "geometry" in data.fields && data.fields["geometry"].Obj?
      && "type" in data.fields["geometry"].fields
      && "coordinates" in data.fields["geometry"].fields
  {
    var geometry := Get(data, "geometry");
    && Truthy(data)
    && TypeOf(data) == "object"
    && Get(data, "type") == Str("Feature")
    && Truthy(geometry)
    && TypeOf(geometry) == "object"
    && Has(geometry, "type")
    && Has(geometry, "coordinates")
  }

  /** Neither the geometry's tag nor its coordinates are inspected: every
      kind that carries `coordinates` passes, whatever they hold; only a
      GeometryCollection, which has `geometries` instead, fails. */
  lemma AnyGeometryKindPasses(g: Geometry)
    ensures IsValidGeoJson(EncodeFeature(g)) <==> g.kind != GeometryCollection
  {
    var geometry := EncodeGeometry(g);
    assert EncodeFeature(g).fields["geometry"] == geometry;
    if g.kind == GeometryCollection {
      assert "coordinates" !in geometry.fields;
    }
  }

  /** Whether the boundary layer is drawn and the map fitted to it. */
  datatype MapEffects = MapEffects(drawsBoundary: bool, fitsBounds: bool)

  /** Both effects test `farm.boundaries && isValidGeoJSON(farm.boundaries)`. */
  function Render(boundaries: Value): (e: MapEffects)
    ensures e.drawsBoundary == e.fitsBounds
    ensures e.drawsBoundary <==> boundaries.Obj? && IsValidGeoJson(boundaries)
  {
    var show := Truthy(boundaries) && IsValidGeoJson(boundaries);
    MapEffects(show, show)
  }

  /** A Polygon feature is always drawn, whatever its rings. */
  lemma PolygonFeatureDrawn(rings: seq<seq<seq<real>>>)
    ensures Render(PolygonFeature(rings)).drawsBoundary
  {
    AnyGeometryKindPasses(Geometry(Polygon, EncodeRings(rings)));
  }
}

=== FILE: ndvi_route.dfy ===
/** The `GET /api/ndvi` route: bbox validation, the output image size derived
    from the box's aspect ratio, and the per-pixel colouring the route's
    evalscript asks Sentinel Hub to apply. */
module NdviRoute {
  import opened Wrappers
  import opened BboxParam
  import opened JsNumbers

  /** `baseResolution`: the longer image side, in pixels. */
  const BaseResolution: real := 1024.0

  function Abs(x: real): (a: real)
    ensures a >= 0.0 && (a == x || a == -x)
  {
    if x < 0.0 then -x else x
  }

  /** The `width` and `height` sent to the process API. A zero-height box has
      an infinite ratio and a zero-area box a NaN one; both are followed as
      JavaScript evaluates them. */
  datatype Dimensions = Dimensions(width: Number, height: Number)

  function OutputSize(b: Box): (d: Dimensions)
    ensures var w, h := Abs(b.maxX - b.minX), Abs(b.maxY - b.minY);
      && (h > 0.0 && w >= h ==>
            d == Dimensions(Finite(BaseResolution), Finite(Round(BaseResolution * h / w) as real)))
      && (h > 0.0 && w < h ==>
            d == Dimensions(Finite(Round(BaseResolution * w / h) as real), Finite(BaseResolution)))
      && (h == 0.0 && w > 0.0 ==> d == Dimensions(Finite(BaseResolution), Finite(0.0)))
      && (h == 0.0 && w == 0.0 ==> d == Dimensions(NaN, Finite(BaseResolution)))
  {
    var w := Abs(b.maxX - b.minX);
    var h := Abs(b.maxY - b.minY);
    if h > 0.0 then
      var ratio := w / h;
      RatioFacts(w, h);
      if ratio >= 1.0 then
        Dimensions(Finite(BaseResolution), Finite(Round(BaseResolution / ratio) as real))
      else
        Dimensions(Finite(Round(BaseResolution * ratio) as real), Finite(BaseResolution))
    else if w > 0.0 then
      // ratio is +Infinity: `ratio >= 1` holds and 1024 / Infinity is 0.
      Dimensions(Finite(BaseResolution), Finite(Round(0.0) as real))
    else
      // ratio is 0 / 0, NaN: `ratio >= 1` fails and Math.round(NaN) is NaN.
      Dimensions(NaN, Finite(BaseResolution))
  }

  /** For a box with extent on both axes, both sides fit in the base
      resolution, the longer one uses all of it, and neither is negative. */
  lemma OutputSizeBounded(b: Box)
    requires b.maxX != b.minX && b.maxY != b.minY
    ensures var d := OutputSize(b);
      && d.width.Finite? && d.height.Finite?
      && 0.0 <= d.width.r <= BaseResolution && 0.0 <= d.height.r <= BaseResolution
      && (d.width.r == BaseResolution || d.height.r == BaseResolution)
  {
    var w, h := Abs(b.maxX - b.minX), Abs(b.maxY - b.minY);
    if w >= h {
      ScaledFraction(h, w);
      RoundWithin(BaseResolution * h / w);
    } else {
      ScaledFraction(w, h);
      RoundWithin(BaseResolution * w / h);
    }
  }

  /** Rounding keeps a value of [0, base resolution] in that range. */
  lemma RoundWithin(v: real)
    requires 0.0 <= v <= BaseResolution
    ensures 0 <= Round(v) && Round(v) as real <= BaseResolution
  {
  }

  /** `ratio >= 1` is `w >= h`, and the two scaled sides are the base resolution
      times h/w and times w/h. */
  lemma RatioFacts(w: real, h: real)
    requires h > 0.0 && w >= 0.0
    ensures w / h >= 1.0 <==> w >= h
    ensures w > 0.0 ==> BaseResolution / (w / h) == BaseResolution * h / w
    ensures BaseResolution * (w / h) == BaseResolution * w / h
  {
    RatioAtLeastOne(w, h);
    if w > 0.0 { ScaledReciprocal(w, h); }
    ScaledQuotient(w, h);
  }

  lemma RatioAtLeastOne(w: real, h: real)
    requires h > 0.0
    ensures w / h >= 1.0 <==> w >= h
  {
    var r := w / h;
    assert r * h == w;
    assert w - h == (r - 1.0) * h;
    if r >= 1.0 {
      assert (r - 1.0) * h >= 0.0;
    } else {
      assert (1.0 - r) * h > 0.0;
    }
  }

  lemma ScaledReciprocal(w: real, h: real)
    requires h > 0.0 && w > 0.0
    ensures BaseResolution / (w / h) == BaseResolution * h / w
  {
    var r, s := w / h, h / w;
    assert r * h == w;
    assert s * w == h;
    assert r * s == 1.0 by {
      assert r * s * w == r * h;
    }
    assert (BaseResolution * s) * r == BaseResolution;
    assert (BaseResolution * s) * w == BaseResolution * h;
  }

  lemma ScaledQuotient(w: real, h: real)
    requires h > 0.0
    ensures BaseResolution * (w / h) == BaseResolution * w / h
  {
    var r := w / h;
    assert r * h == w;
    assert (BaseResolution * r) * h == BaseResolution * w;
  }

  /** The base resolution times p/q lies in (0, the base resolution] when 0 < p <= q. */
  lemma ScaledFraction(p: real, q: real)
    requires 0.0 < p <= q
    ensures 0.0 < BaseResolution * p / q <= BaseResolution
  {
    var f := p / q;
    assert f * q == p;
    assert (1.0 - f) * q == q - p;
    assert BaseResolution * p / q == BaseResolution * f;
  }

  /** Only the absolute extents matter: swapping the two ends of either axis
      changes nothing. */
  lemma OutputSizeSwapInvariant(b: Box)
    ensures OutputSize(Box(b.maxX, b.minY, b.minX, b.maxY)) == OutputSize(b)
    ensures OutputSize(Box(b.minX, b.maxY, b.maxX, b.minY)) == OutputSize(b)
  {
    assert Abs(b.minX - b.maxX) == Abs(b.maxX - b.minX);
    assert Abs(b.minY - b.maxY) == Abs(b.maxY - b.minY);
  }

  /** An RGBA pixel with channels in [0, 1]. */
  datatype Rgba = Rgba(r: real, g: real, b: real, a: real)

  /** Scene classification classes 8, 9 and 10: cloud medium/high probability
      and thin cirrus. */
  predicate IsCloud(scl: int) {
    scl == 8 || scl == 9 || scl == 10
  }

  const CloudPixel: Rgba := Rgba(0.7, 0.7, 0.7, 0.6)

  /** The upper bounds of the NDVI bands, in increasing order. */
  const Thresholds: seq<real> :=
    [-0.5, -0.3, -0.1, 0.0, 0.1, 0.2, 0.3, 0.4, 0.5, 0.6, 0.7, 0.8]

  /** The opaque colour of each of the thirteen bands, bare soil to dense canopy. */
  const Ramp: seq<Rgba> := [
    Rgba(0.8, 0.1, 0.1, 1.0), Rgba(0.9, 0.2, 0.2, 1.0), Rgba(1.0, 0.3, 0.3, 1.0),
    Rgba(1.0, 0.5, 0.3, 1.0), Rgba(1.0, 0.7, 0.3, 1.0), Rgba(1.0, 0.8, 0.3, 1.0),
    Rgba(0.8, 0.9, 0.3, 1.0), Rgba(0.6, 0.9, 0.3, 1.0), Rgba(0.4, 0.9, 0.3, 1.0),
    Rgba(0.2, 0.8, 0.3, 1.0), Rgba(0.1, 0.7, 0.3, 1.0), Rgba(0.1, 0.5, 0.3, 1.0),
    Rgba(0.1, 0.3, 0.3, 1.0)]

  /** The first band, from `i` on, whose threshold lies above `ndvi`; the
      last band when none does. */
  function BandFrom(ndvi: real, i: nat): (k: nat)
    requires i <= |Thresholds|
    ensures i <= k <= |Thresholds|
    ensures forall j :: i <= j < k ==> Thresholds[j] <= ndvi
    ensures k < |Thresholds| ==> ndvi < Thresholds[k]
    decreases |Thresholds| - i
  {
    if i == |Thresholds| then i
    else if ndvi < Thresholds[i] then i
    else BandFrom(ndvi, i + 1)
  }

  /** The band of an NDVI value: the index of the first threshold above it. */
  function Band(ndvi: real): (k: nat)
    ensures k < |Ramp|
    ensures forall j :: 0 <= j < k ==> Thresholds[j] <= ndvi
    ensures k < |Thresholds| ==> ndvi < Thresholds[k]
  {
    BandFrom(ndvi, 0)
  }

  /** The `evaluatePixel` body, branch for branch. */
  function EvaluatePixel(scl: int, ndvi: real): (p: Rgba)
    ensures IsCloud(scl) ==> p == CloudPixel
    ensures !IsCloud(scl) ==> p == Ramp[Band(ndvi)] && p.a == 1.0
  {
    if IsCloud(scl) then Rgba(0.7, 0.7, 0.7, 0.6)
    else
      if ndvi < -0.5 then Rgba(0.8, 0.1, 0.1, 1.0)
      else if ndvi < -0.3 then Rgba(0.9, 0.2, 0.2, 1.0)
      else if ndvi < -0.1 then Rgba(1.0, 0.3, 0.3, 1.0)
      else if ndvi < 0.0 then Rgba(1.0, 0.5, 0.3, 1.0)
      else if ndvi < 0.1 then Rgba(1.0, 0.7, 0.3, 1.0)
      else if ndvi < 0.2 then Rgba(1.0, 0.8, 0.3, 1.0)
      else if ndvi < 0.3 then Rgba(0.8, 0.9, 0.3, 1.0)
      else if ndvi < 0.4 then Rgba(0.6, 0.9, 0.3, 1.0)
      else if ndvi < 0.5 then Rgba(0.4, 0.9, 0.3, 1.0)
      else if ndvi < 0.6 then Rgba(0.2, 0.8, 0.3, 1.0)
      else if ndvi < 0.7 then Rgba(0.1, 0.7, 0.3, 1.0)
      else if ndvi < 0.8 then Rgba(0.1, 0.5, 0.3, 1.0)
      else Rgba(0.1, 0.3, 0.3, 1.0)
  }

  /** A higher NDVI never falls in a lower band. */
  lemma BandMonotone(x: real, y: real)
    requires x <= y
    ensures Band(x) <= Band(y)
  {
  }

  /** Band `k` is exactly the interval between threshold `k - 1` (inclusive)
      and threshold `k` (exclusive), the outer bands being unbounded; so every
      value lies in exactly one band. */
  lemma BandInterval(ndvi: real, k: nat)
    requires k < |Ramp|
    ensures Band(ndvi) == k <==>
      (k == 0 || Thresholds[k - 1] <= ndvi) && (k == |Thresholds| || ndvi < Thresholds[k])
  {
  }

  /** What the token and process requests answered. */
  datatype ProcessAnswer = TokenRejected | ProcessRejected | Png(image: seq<bv8>)

  /** The parts of the process request the route computes. */
  datatype ProcessRequest = ProcessRequest(
    bbox: Box, width: Number, height: Number, lookbackDays: nat, maxCloudCoverage: nat)

  datatype Response = Image(request: ProcessRequest, png: seq<bv8>) | Failure(status: nat, error: string)

  /** The request the route sends for a valid box: the computed size, a
      60-day window and at most 20% cloud cover. */
  function RequestFor(box: Box): (req: ProcessRequest)
    ensures req.bbox == box
    ensures Dimensions(req.width, req.height) == OutputSize(box)
    ensures req.lookbackDays == 60 && req.maxCloudCoverage == 20
  {
    var size := OutputSize(box);
    ProcessRequest(box, size.width, size.height, 60, 20)
  }

  /** The route handler; `process` stands for Sentinel Hub's answer to a request. */
  function HandleGet(bbox: Option<string>, number: string -> Option<real>,
                     process: ProcessRequest -> ProcessAnswer): (resp: Response)
    ensures ParseBbox(bbox, number).Err? ==>
      resp == Failure(BadRequest, Message(ParseBbox(bbox, number).error))
    ensures ParseBbox(bbox, number).Ok? ==>
      var req := RequestFor(ParseBbox(bbox, number).value);
      match process(req)
      case Png(image) => resp == Image(req, image)
      case TokenRejected => resp == Failure(500, "Failed to get Sentinel Hub token")
      case ProcessRejected => resp == Failure(500, "Failed to fetch NDVI data")
    ensures resp.Image? ==>
      && ParseBbox(bbox, number) == Ok(resp.request.bbox)
      && Dimensions(resp.request.width, resp.request.height) == OutputSize(resp.request.bbox)
      && resp.request.lookbackDays == 60 && resp.request.maxCloudCoverage == 20
    ensures resp.Failure? && resp.status != BadRequest ==> resp.status == 500
  {
    match ParseBbox(bbox, number)
    case Err(e) => Failure(BadRequest, Message(e))
    case Ok(box) =>
      var request := RequestFor(box);
      match process(request)
      case TokenRejected => Failure(500, "Failed to get Sentinel Hub token")
      case ProcessRejected => Failure(500, "Failed to fetch NDVI data")
      case Png(image) => Image(request, image)
  }
}

=== FILE: sidebar.dfy ===
/** The sidebar's active-route rule. */
module Sidebar {
  import opened Wrappers

  /** `isActive(path)`: the current path is `path` itself or lies below it;
      with no pathname nothing is active. */
  function IsActive(pathname: Option<string>, path: string): (r: bool)
    ensures pathname.None? ==> !r
    ensures r <==>
      (|| pathname == Some(path)
       || (pathname.Some? && |pathname.value| > |path| &&
           pathname.value[..|path|] == path && pathname.value[|path|] == '/'))
  {
    pathname == Some(path) || (pathname.Some? && path + "/" <= pathname.value)
  }

  /** A sibling that only shares a prefix is not active. */
  lemma SiblingNotActive(path: string, suffix: string)
    requires suffix != "" && suffix[0] != '/'
    ensures !IsActive(Some(path + suffix), path)
  {
    assert (path + suffix)[|path|] == suffix[0];
  }

  /** Two paths active at once are equal or one lies below the other. */
  lemma ActiveNested(pathname: Option<string>, p: string, q: string)
    requires IsActive(pathname, p) && IsActive(pathname, q)
    ensures p == q || p + "/" <= q || q + "/" <= p
  {
    var s := pathname.value;
    if |p| < |q| {
      assert q[..|p|] == s[..|p|] == p;
      assert q[|p|] == s[|p|] == '/';
      assert (p + "/") == q[..|p| + 1];
    } else if |q| < |p| {
      assert p[..|q|] == s[..|q|] == q;
      assert p[|q|] == s[|q|] == '/';
      assert (q + "/") == p[..|q| + 1];
    } else {
      assert p == s[..|p|] || p == s;
    }
  }

  /** The three menu entries. */
  const MenuPaths: seq<string> := ["/dashboard", "/farms", "/settings"]

  /** At most one menu entry is highlighted, whatever the pathname. */
  lemma AtMostOneMenuEntryActive(pathname: Option<string>, i: nat, j: nat)
    requires i < |MenuPaths| && j < |MenuPaths|
    requires IsActive(pathname, MenuPaths[i]) && IsActive(pathname, MenuPaths[j])
    ensures i == j
  {
    ActiveNested(pathname, MenuPaths[i], MenuPaths[j]);
  }
}

=== FILE: text.dfy ===
/** String helpers with the semantics of JavaScript's `String.prototype.split`
    (on a one-character separator), `Array.prototype.join` and `startsWith`. */
module Text {

  /** `s.split(sep)`: the maximal separator-free pieces, in order. */
  function Split(s: string, sep: char): (fields: seq<string>)
    ensures |fields| >= 1
    ensures forall i :: 0 <= i < |fields| ==> sep !in fields[i]
    ensures Join(fields, sep) == s
    decreases |s|
  {
    if sep !in s then [s]
    else
      var k := FirstIndex(s, sep);
      [s[..k]] + Split(s[k + 1..], sep)
  }

  /** `fields.join(sep)`. */
  function Join(fields: seq<string>, sep: char): string
    decreases |fields|
  {
    if |fields| == 0 then ""
    else if |fields| == 1 then fields[0]
    else fields[0] + [sep] + Join(fields[1..], sep)
  }

  /** Position of the first occurrence of `c` in `s`. */
  function FirstIndex(s: string, c: char): (k: nat)
    requires c in s
    ensures k < |s| && s[k] == c
    ensures c !in s[..k]
  {
    if s[0] == c then 0 else 1 + FirstIndex(s[1..], c)
  }

  /** `s.split(sep)[0]`: the text before the first separator, or all of `s`. */
  function BeforeFirst(s: string, sep: char): (r: string)
    ensures sep !in r
    ensures r <= s
    ensures r == s || s[|r|] == sep
  {
    var fields := Split(s, sep);
    JoinHead(fields, sep);
    fields[0]
  }

  /** The first field is a prefix of the joined text, and is followed by the
      separator whenever there is a second field. */
  lemma {:induction false} JoinHead(fields: seq<string>, sep: char)
    requires |fields| >= 1
    ensures fields[0] <= Join(fields, sep)
    ensures |fields| > 1 ==> |Join(fields, sep)| > |fields[0]| && Join(fields, sep)[|fields[0]|] == sep
  {
    if |fields| > 1 {
      assert Join(fields, sep) == fields[0] + ([sep] + Join(fields[1..], sep));
    }
  }

  /** Splitting undoes joining when no field holds the separator. */
  lemma {:induction false} SplitJoin(fields: seq<string>, sep: char)
    requires |fields| >= 1
    requires forall i :: 0 <= i < |fields| ==> sep !in fields[i]
    ensures Split(Join(fields, sep), sep) == fields
    decreases |fields|
  {
    if |fields| > 1 {
      var rest := Join(fields[1..], sep);
      assert Join(fields, sep) == fields[0] + [sep] + rest;
      SplitCons(fields[0], rest, sep);
      SplitJoin(fields[1..], sep);
      assert fields == [fields[0]] + fields[1..];
    }
  }

  /** The first separator of `a + [sep] + b` is the one after `a`. */
  lemma SplitCons(a: string, b: string, sep: char)
    requires sep !in a
    ensures Split(a + [sep] + b, sep) == [a] + Split(b, sep)
  {
    var s := a + [sep] + b;
    assert s[|a|] == sep;
    var k := FirstIndex(s, sep);
    assert k == |a| by {
      assert forall i :: 0 <= i < |a| ==> s[i] == a[i];
      assert k <= |a| ==> s[..k] == a[..k];
    }
    assert s[..k] == a;
    assert s[k + 1..] == b;
  }
}

=== FILE: wrappers.dfy ===
/** Optional values and results shared by the whole model. `None` stands for a
    JavaScript `undefined`/`null` answer, `Err` for an error response. */
module Wrappers {

  datatype Option<+T> = None | Some(value: T)

  datatype Result<+T, +E> = Ok(value: T) | Err(error: E)
}
